=== FILE: README.md ===
# Watchlist API in Dafny

A model of the request handling of a small Go web service that keeps a movie watchlist per
user in MongoDB and guards it with a JWT bearer-token middleware. The model covers:

- the four watchlist handlers of `controller/watchlist.go`: add, list, update and delete;
- the sign-up handler of `controller/user.go`;
- the auth gate of `middleware/authMiddleware.go`;
- the BSON `omitempty` behaviour of `model/watchlist.go`.

Each handler is a pure function from a request and a collection to a reply and the new
collection. Whatever the collection does not decide is a parameter:

- the id `primitive.NewObjectID()` returns;
- the order a cursor visits documents in;
- the errors the driver reports, and the wording of the write errors whose occurrence the
  collection decides;
- the bcrypt hash;
- the token verifier.

Modules, one per file:

- `Wrappers` (`wrappers.dfy`): `Option` and `Result`.
- `ObjectIds` (`objectid.dfy`): 12-byte ObjectIDs, `Hex()`, and `ObjectIDFromHex`. The parser
  checks the UTF-8 byte length, decodes with `encoding/hex`, and produces the error text Add
  appends to its 400 message.
- `Models` (`model.dfy`): the `Watchlist` and `User` records and the documents made of them.
  A field that `omitempty` drops is absent from the document, so a filter on it never matches,
  and `$set` leaves it as it was.
- `Driver` (`driver.dfy`): what the MongoDB driver reports that the collection's contents do
  not decide.
- `Http` (`http.dfy`): the request, the response writer and the reply. As in `net/http`, the
  first status written is the one sent; a later `http.Error` or JSON encode only appends to the
  body. This is what makes the error writes without `return` visible. A handler that panics is
  `Aborted`: `net/http` recovers the panic and closes the connection without sending the
  buffered response.
- `Auth` (`auth.dfy`): the middleware, with the credentials syntax of section 2.1 of RFC 6750
  as a reference to compare against. The scheme name is matched in any case there, as
  section 2.1 of RFC 7235 requires.
- `WatchlistController` (`watchlist.dfy`): the four handlers, their properties, and runs of
  many requests.
- `UserController` (`user.dfy`): sign-up, its properties, and runs of many sign-ups.

Behaviour the model reproduces rather than corrects:

- Add rejects a movie name that any user already has (`controller/watchlist.go:32`).
- Update and Delete never look at the caller.
- Update can hand an entry to another user through `user_id`.
- Update resets `watched` when the body leaves it out.
- Sign-up and List write an error status and carry on.
- The gate accepts `"Bearerabc"`, rejects `"bearer abc"`, and passes `"Bearer  abc"` on with a
  leading space in the token.

The type assertion `.(string)` on the context value panics when no user id is bound. The model
answers that case with `Aborted` instead of assuming it away with a precondition, so no handler
has a precondition.

## Model

| member | source | states |
|---|---|---|
| ObjectIds.Hex | controller/watchlist.go:56 | `Hex()` prints an id as 24 lower-case hex digits |
| ObjectIds.DecodeHex | controller/watchlist.go:39 | `hex.Decode` succeeds only when every byte is a hex digit. Its output is half as long as its input. An invalid-byte error names a byte that is not a hex digit, and it never reports `ErrInvalidHex` (`WrongLength`). DecodeHexAcceptsDigits states the converse |
| ObjectIds.DecodeHexAcceptsDigits | controller/watchlist.go:39 | Input of even length made only of hex digits, in either case, always decodes |
| ObjectIds.FromHex | controller/watchlist.go:39-43 | `ObjectIDFromHex` accepts only 24-character ASCII text. It answers "not a valid ObjectID" exactly when the UTF-8 byte length is not 24 |
| ObjectIds.Utf8OfAsciiText | controller/watchlist.go:39 | The bytes of ASCII text are its characters, one byte each |
| ObjectIds.FromHexAccepts | controller/watchlist.go:39 | Every text of 24 hex digits, in either case, is accepted |
| ObjectIds.UpperCaseIdAccepted | controller/watchlist.go:39 | An id written in upper-case hex is accepted |
| ObjectIds.HexRoundTrip | controller/watchlist.go:56 | Parsing the printed id gives the id back |
| ObjectIds.HexOfParsed | controller/watchlist.go:39 | Any text the parser accepts is the printed form of the parsed id, up to the case of its letters. Together with HexRoundTrip, printing and parsing are inverse |
| ObjectIds.Utf8 | controller/watchlist.go:39 | A Go string's UTF-8 encoding has at least one byte per character |
| ObjectIds.Utf8Concat | controller/watchlist.go:39 | The encoding of a concatenation is the concatenation of the encodings |
| ObjectIds.HexValue | controller/watchlist.go:39 | `encoding/hex` accepts exactly the bytes 0-9, a-f and A-F as digits, each with a value below 16 |
| ObjectIds.DigitValue | controller/watchlist.go:39 | Decoding a digit that `Hex()` prints gives back its position in the digit table |
| ObjectIds.LowerDigit | controller/watchlist.go:39 | A digit of either case decodes to the value whose lower-case digit it is |
| ObjectIds.HexErrorText | controller/watchlist.go:41 | An invalid-byte error text carries the byte as two `%U` hex digits that decode back to it |
| ObjectIds.HexErrorTextInjective | controller/watchlist.go:41 | Different parse errors have different texts: the text tells which check failed and which byte was rejected |
| ObjectIds.Utf8OfAscii | controller/watchlist.go:39 | A Go string whose bytes are all below 0x80 is ASCII, with one byte per character |
| Models.OmitNilId | model/watchlist.go:6-7 | `omitempty` drops an ObjectID exactly when it is the nil id; decoding the omission gives the nil id back |
| Models.OmitEmpty | model/watchlist.go:8 | `omitempty` drops a string exactly when it is empty; decoding the omission gives "" back |
| Models.Unmarshal | model/watchlist.go:5-10 | Decoding keeps the id and `watched`. Only a stored zero value is lost: encoding the decoded record gives any other stored `user_id` and `movie_name` back |
| Models.Marshal | model/watchlist.go:5-10 | Encoding drops `id`, `user_id` and `movie_name` exactly when they hold their zero values, and always writes `watched`. Decoding the document gives the record back |
| Models.MarshalOfUnmarshal | model/watchlist.go:5-10 | On documents the handlers write, decoding and then encoding gives the document back |
| Models.ApplySet | controller/watchlist.go:131 | `$set` with a document the driver wrote keeps the stored document free of zero-valued `omitempty` fields |
| Models.SetOfMarshalIsPatched | controller/watchlist.go:131 | `$set` of the encoded PATCH body replaces a non-nil `user_id`, replaces a non-empty `movie_name`, always replaces `watched` and keeps the id |
| Http.PerformKeepsStatus | controller/watchlist.go:72-75 | Once a status is written, later `http.Error` calls and encodes do not change it and only append to the body |
| Http.FirstStatusSent | controller/user.go:33-35 | For any sequence of writes, the client gets the status of the first one: its code for `http.Error`, 200 for an encode or for no write at all. The body holds every payload in order |
| Http.Reject | controller/watchlist.go:19-22 | `http.Error` followed by `return` sends exactly that status and text and changes no collection |
| Auth.TrimPrefix | middleware/authMiddleware.go:20 | `strings.TrimPrefix` removes the prefix once if it is there, and otherwise returns the text unchanged |
| Auth.BearerToken | middleware/authMiddleware.go:15-20 | A token is produced exactly when the header starts with "Bearer". It is the rest after "Bearer " when the seventh character is a space, and otherwise the whole header |
| Auth.AuthMiddleware | middleware/authMiddleware.go:13-28 | Every rejection is 401. The request is forwarded exactly when there is a token and the verifier accepts it. It is forwarded with the verified id bound under `UserIDKey` and nothing else changed |
| Auth.GuardedRejectionIgnoresNext | middleware/authMiddleware.go:16-25 | A rejected request gets the same 401 reply whatever handler is behind the gate, and no collection changes |
| Auth.MissingHeaderRejected | middleware/authMiddleware.go:16-18 | An empty or absent header gets 401 "Missing or invalid token", and the verifier is not consulted |
| Auth.WrongSchemeRejected | middleware/authMiddleware.go:16-18 | A header not starting with "Bearer" gets 401 "Missing or invalid token" |
| Auth.VerifierErrorRejected | middleware/authMiddleware.go:21-25 | A verifier error gets 401 "Unauthorized: " followed by the error |
| Auth.BearerTokenOfWellFormed | middleware/authMiddleware.go:20 | The header "Bearer " + t hands exactly t to the verifier |
| Auth.BearerWithoutSpacePasses | middleware/authMiddleware.go:16-20 | "Bearerabc" passes the check and reaches the verifier unchanged |
| Auth.OnePrefixTrimmed | middleware/authMiddleware.go:20 | "Bearer Bearer x" reaches the verifier as "Bearer x" |
| Auth.ForwardBindsUserId | middleware/authMiddleware.go:27-28 | After a successful verification, method, headers, path variables and body are kept. The context maps `UserIDKey` to the verified id and keeps every other binding |
| Auth.StrictBearerToken | middleware/authMiddleware.go:16-20 | The RFC 6750 reference: a token only when the header is the scheme "Bearer" in any case, one or more spaces, and a `b64token`; the token is that `b64token` |
| Auth.StrictBearerTokenOfForm | middleware/authMiddleware.go:16-20 | Every header of the RFC form gives its token: the scheme in any case, any positive number of spaces, any `b64token` |
| Auth.DropSpaces | middleware/authMiddleware.go:20 | Dropping leading spaces leaves a suffix that does not start with a space, and removes only spaces |
| Auth.StrictExactSchemePasses | middleware/authMiddleware.go:16-20 | When an RFC-form header spells the scheme "Bearer", the gate passes it on, and its token is the RFC's token after extra spaces it does not remove |
| Auth.LowerCaseSchemeRejected | middleware/authMiddleware.go:16-18 | "bearer abc" is of the RFC form with token "abc", yet the gate rejects it |
| Auth.ExtraSpaceReachesVerifier | middleware/authMiddleware.go:20 | For "Bearer  abc" the RFC's token is "abc", but the gate hands " abc" to the verifier |
| Auth.LooseNotStrict | middleware/authMiddleware.go:16-20 | The gate also accepts a header that is not of the RFC form |
| WatchlistController.ParseIdOrNilRoundTrip | controller/watchlist.go:121 | With the error ignored, the printed form of an id selects that id, any id the parser accepts selects the id printed as its lower-case form, and a malformed id selects the nil id |
| WatchlistController.Stamped | controller/watchlist.go:37-44 | The stored record has the fresh id, and decoding its document gives the fresh id, the caller as owner, and the submitted name and `watched` |
| WatchlistController.Add | controller/watchlist.go:18-63 | Add leaves the collection as it was, or adds one document under an id that was unused. It changes the collection exactly when it answers 200, and keeps every document well formed |
| WatchlistController.AddWrongMethod | controller/watchlist.go:19-22 | A method other than POST gets 405, and nothing changes |
| WatchlistController.AddConflictIgnoresOwner | controller/watchlist.go:32-36 | A name held by any document gives 409 and no change, for every caller, before the caller id is read |
| WatchlistController.AddBadCallerIdRejected | controller/watchlist.go:38-43 | A caller id that is not hex gets 400 and no insert, but only once the duplicate check has passed |
| WatchlistController.AddInsertsStamped | controller/watchlist.go:37-61 | A successful add stores the body with the fresh id and the caller as owner, whatever ids the body carried, and replies with the new id in hex, the name and `watched` |
| WatchlistController.AddSucceedsIff | controller/watchlist.go:18-63 | Add answers 200 exactly when all of these hold: the method is POST, the body decodes, the name is free or the lookup failed, the caller id parses, and the insert succeeds on an unused id |
| WatchlistController.EmptyNameNeverTaken | controller/watchlist.go:32 | The lookup for an empty movie name never finds a document, because stored documents omit empty names |
| WatchlistController.AddKeepsNamesUnique | controller/watchlist.go:32-51 | When the lookup works, Add never creates a second document with the same name |
| WatchlistController.FailedLookupAllowsDuplicate | controller/watchlist.go:32-36 | A failed lookup skips the duplicate check, so a duplicate name is inserted with 200 |
| WatchlistController.FindByOwner | controller/watchlist.go:80-101 | `Find` on `user_id` followed by `cursor.All` lists only stored documents owned by that user, decoded. It lists every such document the cursor visits |
| WatchlistController.List | controller/watchlist.go:65-112 | List never changes the collection |
| WatchlistController.ListWrongMethod | controller/watchlist.go:66-69 | A method other than GET gets 405, and nothing changes |
| WatchlistController.ListIsScopedToCaller | controller/watchlist.go:70-111 | With no faults, List answers 200 with exactly the caller's documents: every listed entry is owned by the caller, and every document the caller owns is listed |
| WatchlistController.FindByOwnerDistinct | controller/watchlist.go:100-101 | A cursor that visits each document once lists no id twice |
| WatchlistController.ListBadCallerIdListsNothing | controller/watchlist.go:71-75 | A malformed caller id gets status 400 with "Something went wrong" followed by an empty list, because the handler does not return |
| WatchlistController.NothingOwnedByNil | controller/watchlist.go:80 | The lookup with the nil id finds nothing in a well-formed collection |
| WatchlistController.ListFindFaultAborts | controller/watchlist.go:80-101 | A failed `Find` does not return, and the nil cursor makes the handler panic |
| WatchlistController.Update | controller/watchlist.go:113-146 | Update can change only the document with the path id. It never adds or removes one, and it keeps documents well formed. A PATCH with a decodable body that keeps the `_id`, sent to a stored id with the driver working, applies `$set` of the encoded body to that document. A body that fails to decode or a failed `UpdateByID` changes nothing, and any change comes with the 200 success reply |
| WatchlistController.UpdateWrongMethod | controller/watchlist.go:114-117 | A method other than PATCH gets 405, and nothing changes |
| WatchlistController.UpdateNotFoundIff | controller/watchlist.go:131-140 | Update answers 404 exactly when the update ran and no document has the path id; nothing changes then |
| WatchlistController.UpdateBadIdNotFound | controller/watchlist.go:121-140 | A malformed path id gets 404 and no change |
| WatchlistController.UpdateSetsPresentFields | controller/watchlist.go:131 | After a 200, the document is the old record patched by the body as `$set` of its encoding does: a non-nil `user_id` reassigns the owner, an empty name keeps the old one, and `watched` always takes the body's value |
| WatchlistController.UpdateCannotMoveId | controller/watchlist.go:131-136 | A body id other than the path id makes the server refuse with its immutable-`_id` error, and the handler answers 500 with that error's text after its own prefix |
| WatchlistController.UpdateSucceeds | controller/watchlist.go:113-146 | A PATCH with a decodable body that keeps the `_id`, sent to a stored id with the driver working, answers 200 "Watchlist updated successfully" and applies `$set` of the encoded body to that document alone |
| WatchlistController.UpdateIgnoresCaller | controller/watchlist.go:113-146 | There is no ownership check: the caller has no effect on Update |
| WatchlistController.Delete | controller/watchlist.go:147-167 | Delete removes at most the document with the path id and nothing else. With the driver working, a stored path id is removed |
| WatchlistController.DeleteOutcomes | controller/watchlist.go:154-166 | Delete answers 404 exactly when `DeleteOne` succeeds and no document has the path id, and 200 exactly when it removed that document. Other documents are untouched |
| WatchlistController.DeleteRemoves | controller/watchlist.go:147-167 | With the driver working, a stored path id is removed, every other document is kept, and the reply is 200 "Watchlist deleted successfully" |
| WatchlistController.DeleteBadIdNotFound | controller/watchlist.go:150-162 | A malformed path id gets 404 and no change |
| WatchlistController.DeleteIgnoresCallerAndMethod | controller/watchlist.go:147-167 | Neither the caller nor the HTTP method has any effect on Delete |
| WatchlistController.NoTokenReachesNoHandler | middleware/authMiddleware.go:15-18 | Behind the gate, a request without an `Authorization` header reaches none of the four handlers: each answers 401 "Missing or invalid token" and the collection is unchanged |
| WatchlistController.RunPreservesWellFormed | controller/watchlist.go:18-167 | Over any sequence of requests to the four handlers, no document ever gets the nil id or a zero-valued `omitempty` field |
| UserController.Signup | controller/user.go:18-83 | Sign-up leaves the collection as it was, or adds exactly the submitted user with the hash output, under an unused id and only for an unused email. A 200 reply means the user was stored. A failed lookup or a failed `InsertOne` stores nothing. Emails stay unique |
| UserController.SignupWrongMethod | controller/user.go:19-22 | A method other than POST gets 405, and nothing changes |
| UserController.SignupEmailTaken | controller/user.go:43-45 | A stored email gets 409 "User already exists", and nothing changes |
| UserController.SignupLookupFails | controller/user.go:46-48 | A lookup error other than "no documents" gets 500 "Database error", and nothing changes |
| UserController.SignupStoresHash | controller/user.go:51-81 | A clean sign-up stores exactly one user, with the hash in place of the password, leaves the other users untouched, and replies 200 with id, name and email |
| UserController.SignupReplyHasNoPassword | controller/user.go:18-83 | The reply body holds only the handler's six fixed error texts and at most the new user's id, name and email, never the password or its hash |
| UserController.SignupBadJsonStillStores | controller/user.go:33-35 | A body that fails to decode gets status 400, yet the partly decoded user is stored |
| UserController.SignupHashFailureStoresEmptyPassword | controller/user.go:52-56 | A failed hash gets status 500, yet the user is stored with an empty password |
| UserController.SignupRunKeepsEmailsUnique | controller/user.go:43-57 | Over any sequence of sign-ups, no two users share an email |

## Left out

- `services/jwt.go`, the token verifier, is a parameter. It accepts an HMAC signature (any of HS256, HS384 and HS512) under the secret and checks `exp`; both checks live in the JWT library.
- bcrypt is a parameter. Its cost and salt are not modelled, and neither is its 72-byte password limit; a failure is `None`.
- Error texts that come from the JSON decoder or from the MongoDB driver are parameters. For the duplicate-key and immutable-`_id` write errors the model decides when they occur, but their wording, which the driver wraps with the namespace and key, is a parameter too.
- Which id `primitive.NewObjectID()` returns is a parameter, and so is the order a cursor visits documents in.
- JSON and BSON encoding are out: the reply body is a list of payload records, not bytes.
- The `Content-Type` header is not modelled, and neither is the output printed to stdout. The `message` field that the Add, List and sign-up success replies carry beside their record is left out too.
- On a panic, `net/http` logs and closes the connection. That is the `Aborted` reply.
- A request header is one value, the first, as `Header.Get` reads it.
- `config/db.go`, `main.go` and `routes/*.go` are out: connection set-up, route wiring and `ListenAndServe`.
- `LoginHandler` is not part of this model.
- A driver error is modelled as a call that had no effect on the collection. An error reported after the server applied the write (a lost reply, the 10-second context deadline, a write-concern error), after which the handler answers 500 with the document stored, changed or removed, is not modelled; the rows that tie a change to a 200 rest on this.
- Context timeouts and concurrent requests are out. The model serves one request at a time, so the check-then-insert races of Add and sign-up are not modelled.
- Go strings may hold bytes that are not valid UTF-8 (a path variable written with `%FF`, a raw header), while the model's strings are sequences of characters. Such inputs are not modelled; `ObjectIDFromHex` rejects them either way, as their bytes are not hex digits.

=== FILE: auth.dfy ===
/** The auth gate of middleware/authMiddleware.go: it reads the `Authorization` header,
    turns it into a token, asks the token verifier for the user id the token carries and
    either rejects the request with 401 or hands it on with that id bound in its context.

    The verifier (services.VerifyToken: an HMAC signature check, any of HS256, HS384 and
    HS512, and the expiry check, done by the JWT library) is a parameter: any function from token text to a user id or an error text. */
module Auth {
  import opened Wrappers
  import opened Http

  const AuthorizationHeader := "Authorization"
  const Scheme := "Bearer"
  const SchemeAndSpace := "Bearer "

  type Verifier = string -> Result<string, string>

  /** `strings.HasPrefix`. */
  predicate HasPrefix(s: string, prefix: string) {
    |prefix| <= |s| && s[..|prefix|] == prefix
  }

  /** `strings.TrimPrefix`: removes the prefix once, if it is there. */
  function TrimPrefix(s: string, prefix: string): (r: string)
    ensures HasPrefix(s, prefix) ==> prefix + r == s
    ensures !HasPrefix(s, prefix) ==> r == s
  {
    if HasPrefix(s, prefix) then s[|prefix|..] else s
  }

  /** The token the gate hands to the verifier, or `None` when it answers 401 before asking.
      The header must start with "Bearer", space or not; then ONE leading "Bearer " (with the
      space) is cut off, so "Bearerabc" passes unchanged. */
  function BearerToken(header: string): (t: Option<string>)
    ensures t.Some? <==> |header| >= 6 && header[..6] == Scheme
    ensures t.Some? && |header| >= 7 && header[6] == ' ' ==> t.value == header[7..]
    ensures t.Some? && !(|header| >= 7 && header[6] == ' ') ==> t.value == header
  {
    if header == "" || !HasPrefix(header, Scheme) then None
    else Some(TrimPrefix(header, SchemeAndSpace))
  }

  /** What the gate does with one request: answer it, or call the next handler once with
      this request. */
  datatype Gate<B> = Rejected(reply: Reply) | Forwarded(request: Request<B>)

  /** `AuthMiddleware(next)` applied to one request. */
  function AuthMiddleware<B>(verify: Verifier, r: Request<B>): (g: Gate<B>)
    ensures g.Rejected? ==> g.reply.Sent? && g.reply.status == StatusUnauthorized
    ensures g.Forwarded? <==>
              BearerToken(Header(r, AuthorizationHeader)).Some?
              && verify(BearerToken(Header(r, AuthorizationHeader)).value).Success?
    ensures g.Forwarded? ==>
              g.request == r.(ctx := r.ctx[UserIDKey := verify(BearerToken(Header(r, AuthorizationHeader)).value).value])
  {
    var token := BearerToken(Header(r, AuthorizationHeader));
    if token.None? then
      Rejected(Sent(StatusUnauthorized, [Text("Missing or invalid token")]))
    else
      match verify(token.value)
      case Failure(e) => Rejected(Sent(StatusUnauthorized, [Text("Unauthorized: " + e)]))
      case Success(userId) => Forwarded(r.(ctx := r.ctx[UserIDKey := userId]))
  }

  /** A handler behind the gate: a rejected request never reaches it and leaves its
      collection as it was. */
  function Guarded<B, S>(verify: Verifier, next: Request<B> -> Outcome<S>, r: Request<B>, store: S): (o: Outcome<S>)
    ensures AuthMiddleware(verify, r).Rejected? ==> o == Outcome(AuthMiddleware(verify, r).reply, store)
    ensures AuthMiddleware(verify, r).Forwarded? ==> o == next(AuthMiddleware(verify, r).request)
  {
    match AuthMiddleware(verify, r)
    case Rejected(reply) => Outcome(reply, store)
    case Forwarded(r') => next(r')
  }

  /** A rejection does not depend on the handler behind the gate: whatever `next` would do,
      the client gets the gate's 401 and the collection is left as it was. */
  lemma GuardedRejectionIgnoresNext<B, S>(verify: Verifier, next: Request<B> -> Outcome<S>,
                                          other: Request<B> -> Outcome<S>, r: Request<B>, store: S)
    requires AuthMiddleware(verify, r).Rejected?
    ensures Guarded(verify, next, r, store) == Guarded(verify, other, r, store)
    ensures Guarded(verify, next, r, store).store == store
    ensures Guarded(verify, next, r, store).reply.Sent?
    ensures Guarded(verify, next, r, store).reply.status == StatusUnauthorized
  {
  }

  // ---------------------------------------------------------------------------
  // Properties of the gate
  // ---------------------------------------------------------------------------

  /** No header, or an empty one: 401 with the fixed message, and the verifier is not consulted. */
  lemma MissingHeaderRejected<B>(verify: Verifier, r: Request<B>)
    requires Header(r, AuthorizationHeader) == ""
    ensures AuthMiddleware(verify, r) == Rejected(Sent(StatusUnauthorized, [Text("Missing or invalid token")]))
  {
  }

  /** A header that does not start with "Bearer": 401 with the same fixed message. */
  lemma WrongSchemeRejected<B>(verify: Verifier, r: Request<B>)
    requires !HasPrefix(Header(r, AuthorizationHeader), Scheme)
    ensures AuthMiddleware(verify, r) == Rejected(Sent(StatusUnauthorized, [Text("Missing or invalid token")]))
  {
  }

  /** A verifier error: 401 whose body is "Unauthorized: " followed by the error. */
  lemma VerifierErrorRejected<B>(verify: Verifier, r: Request<B>, token: string)
    requires BearerToken(Header(r, AuthorizationHeader)) == Some(token)
    requires verify(token).Failure?
    ensures AuthMiddleware(verify, r)
         == Rejected(Sent(StatusUnauthorized, [Text("Unauthorized: " + verify(token).error)]))
  {
  }

  /** The well-formed header "Bearer " + t hands exactly t to the verifier. */
  lemma BearerTokenOfWellFormed(t: string)
    ensures BearerToken(SchemeAndSpace + t) == Some(t)
  {
  }

  /** The check and the cut disagree: "Bearerabc" passes the check and, as it does not start
      with "Bearer ", reaches the verifier whole. */
  lemma BearerWithoutSpacePasses()
    ensures BearerToken("Bearerabc") == Some("Bearerabc")
  {
  }

  /** Only one prefix is cut: "Bearer Bearer x" reaches the verifier as "Bearer x". */
  lemma OnePrefixTrimmed()
    ensures BearerToken("Bearer Bearer x") == Some("Bearer x")
  {
  }

  /** On success the next handler sees the same request, with the verified id bound under
      `UserIDKey` and every other context binding kept. */
  lemma ForwardBindsUserId<B>(verify: Verifier, r: Request<B>, userId: string)
    requires BearerToken(Header(r, AuthorizationHeader)).Some?
    requires verify(BearerToken(Header(r, AuthorizationHeader)).value) == Success(userId)
    ensures AuthMiddleware(verify, r).Forwarded?
    ensures var r' := AuthMiddleware(verify, r).request;
            && r'.verb == r.verb && r'.headers == r.headers && r'.vars == r.vars && r'.body == r.body
            && UserIDKey in r'.ctx && r'.ctx[UserIDKey] == userId
            && forall k :: k in r.ctx && k != UserIDKey ==> k in r'.ctx && r'.ctx[k] == r.ctx[k]
  {
  }

  // ---------------------------------------------------------------------------
  // Reference: the credentials syntax of section 2.1 of RFC 6750
  // ---------------------------------------------------------------------------

  /** A `b64token` character of RFC 6750: letters, digits and "-._~+/" (trailing "=" are
      allowed by the grammar and handled in `IsB64Token`). */
  predicate IsB64TokenChar(c: char) {
    ('A' <= c <= 'Z') || ('a' <= c <= 'z') || ('0' <= c <= '9')
    || c == '-' || c == '.' || c == '_' || c == '~' || c == '+' || c == '/'
  }

  /** `b64token = 1*( ALPHA / DIGIT / "-" / "." / "_" / "~" / "+" / "/" ) *"="`. */
  predicate IsB64Token(t: string) {
    && |t| >= 1 && IsB64TokenChar(t[0])
    && (forall i :: 0 <= i < |t| ==> IsB64TokenChar(t[i]) || t[i] == '=')
    && (forall i, j :: 0 <= i < j < |t| && t[i] == '=' ==> t[j] == '=')
  }

  /** ASCII lower case: auth-scheme names are compared without regard to case (section 2.1
      of RFC 7235, with section 2.3 of RFC 5234 for quoted grammar strings). */
  function LowerAscii(c: char): char {
    if 'A' <= c <= 'Z' then (c as int + 32) as char else c
  }

  predicate SameIgnoringCase(a: string, b: string) {
    |a| == |b| && forall i :: 0 <= i < |a| ==> LowerAscii(a[i]) == LowerAscii(b[i])
  }

  /** The text after the leading spaces. */
  function DropSpaces(s: string): (r: string)
    ensures |r| <= |s| && r == s[|s| - |r|..]
    ensures forall i :: 0 <= i < |s| - |r| ==> s[i] == ' '
    ensures r == [] || r[0] != ' '
    decreases |s|
  {
    if s != [] && s[0] == ' ' then DropSpaces(s[1..]) else s
  }

  /** `credentials = auth-scheme 1*SP b64token` with "Bearer" as the scheme, in any case: the
      token when the header has that form. */
  function StrictBearerToken(header: string): (t: Option<string>)
    ensures t.Some? ==>
              && IsB64Token(t.value)
              && |header| >= 7 + |t.value|
              && SameIgnoringCase(header[..6], Scheme)
              && (forall i :: 6 <= i < |header| - |t.value| ==> header[i] == ' ')
              && header[|header| - |t.value|..] == t.value
  {
    if |header| >= 7 && SameIgnoringCase(header[..6], Scheme) && header[6] == ' ' then
      var token := DropSpaces(header[6..]);
      if IsB64Token(token) then Some(token) else None
    else None
  }

  /** Dropping the leading spaces of a text whose first `k` characters are its only leading
      spaces leaves the text after them. */
  lemma {:induction false} DropSpacesAfter(s: string, k: nat)
    requires k <= |s| && (forall i :: 0 <= i < k ==> s[i] == ' ') && (k == |s| || s[k] != ' ')
    ensures DropSpaces(s) == s[k..]
    decreases k
  {
    if k > 0 {
      assert s[1..][k - 1..] == s[k..];
      DropSpacesAfter(s[1..], k - 1);
    }
  }

  /** Every header of the RFC form gives its token: the scheme in any case, then one or more
      spaces, then a b64token, which is what the reference hands on. */
  lemma StrictBearerTokenOfForm(header: string, token: string)
    requires IsB64Token(token) && |header| >= 7 + |token|
    requires SameIgnoringCase(header[..6], Scheme)
    requires forall i :: 6 <= i < |header| - |token| ==> header[i] == ' '
    requires header[|header| - |token|..] == token
    ensures StrictBearerToken(header) == Some(token)
  {
    var k := |header| - |token| - 6;
    assert header[k + 6] == token[0] && IsB64TokenChar(token[0]);
    assert header[6..][k..] == token;
    DropSpacesAfter(header[6..], k);
  }

  /** Where the header is of the RFC form and the scheme is written as the gate writes it, the
      gate hands on the RFC's token, or that token after extra spaces it leaves in place. */
  lemma StrictExactSchemePasses(header: string)
    requires StrictBearerToken(header).Some? && header[..6] == Scheme
    ensures BearerToken(header).Some?
    ensures DropSpaces(BearerToken(header).value) == StrictBearerToken(header).value
  {
    assert header[6..][1..] == header[7..];
  }

  /** The gate is not looser than the RFC only: "bearer abc" is of the RFC form, as the scheme
      is matched in any case, yet the gate answers 401 before asking the verifier. */
  lemma LowerCaseSchemeRejected()
    ensures StrictBearerToken("bearer abc") == Some("abc")
    ensures BearerToken("bearer abc").None?
  {
    var header := "bearer abc";
    assert header[..6] == "bearer" && header[6] == ' ' && header[7..] == "abc";
    assert SameIgnoringCase(header[..6], Scheme);
    StrictBearerTokenOfForm(header, "abc");
    assert header[0] == 'b';
  }

  /** With two spaces after the scheme the RFC's token is "abc", but the gate cuts one space
      and hands " abc" to the verifier. */
  lemma ExtraSpaceReachesVerifier()
    ensures StrictBearerToken("Bearer  abc") == Some("abc")
    ensures BearerToken("Bearer  abc") == Some(" abc")
  {
    var header := "Bearer  abc";
    assert header[..6] == Scheme && header[6] == ' ' && header[7] == ' ' && header[8..] == "abc";
    assert SameIgnoringCase(header[..6], Scheme);
    StrictBearerTokenOfForm(header, "abc");
  }

  /** And the gate passes headers the RFC does not allow: "Bearerabc" has no space after the
      scheme, yet the gate passes it on. */
  lemma LooseNotStrict()
    ensures StrictBearerToken("Bearerabc").None?
    ensures BearerToken("Bearerabc").Some?
  {
    assert "Bearerabc"[6] == 'a';
    BearerWithoutSpacePasses();
  }
}

=== FILE: driver.dfy ===
/** What the MongoDB driver reports that the collection's contents do not decide: whether a
    call failed for reasons of its own (the server or the connection), and the texts of the
    write errors whose occurrence the contents do decide. A failed call is one the server did
    not apply: an error reported after the write took effect is not modelled. */
module Driver {
  import opened Wrappers

  /** The outcome of a handler's driver calls: `None` is success, `Some(e)` an error `e`. */
  datatype Faults = Faults(find: Option<string>, write: Option<string>, cursor: Option<string>)

  const NoFaults := Faults(None, None, None)

  /** `err.Error()` of the write error the server answers when an insert reuses an `_id`
      (`duplicateKey`), and when a `$set` would change a document's `_id` (`immutableId`).
      When each occurs is part of the model; the wording is the driver's and is a parameter. */
  datatype ServerErrors = ServerErrors(duplicateKey: string, immutableId: string)
}

=== FILE: http.dfy ===
/** The parts of net/http the handlers touch, as values: the request (method, headers, mux
    path variables, the decoded JSON body and the request context) and the response writer.

    The writer follows net/http's rule that the FIRST status written is the one sent: a later
    `http.Error` or JSON encode after an error that did not `return` only appends to the
    body. A handler that panics sends nothing: net/http recovers the panic and drops the
    connection, which the model calls `Aborted`. */
module Http {
  import opened Wrappers
  import opened Models

  const StatusOK := 200
  const StatusBadRequest := 400
  const StatusUnauthorized := 401
  const StatusNotFound := 404
  const StatusMethodNotAllowed := 405
  const StatusConflict := 409
  const StatusInternalServerError := 500

  /** Keys of the request context. `UserIDKey` is the middleware's `contextKey("userId")`. */
  datatype ContextKey = UserIDKey | OtherKey(name: string)

  type Context = map<ContextKey, string>

  /** What `json.NewDecoder(r.Body).Decode(&v)` leaves behind: the value as far as it was
      filled in, and the error, if any. */
  datatype Decoded<B> = Decoded(value: B, err: Option<string>)

  datatype Request<B> = Request(
    verb: string,                   // r.Method
    headers: map<string, string>,   // canonical header name to its first value
    vars: map<string, string>,      // mux.Vars(r)
    body: Decoded<B>,
    ctx: Context)

  /** `r.Header.Get(name)`: the empty string when the header is absent. */
  function Header<B>(r: Request<B>, name: string): (v: string)
    ensures name !in r.headers ==> v == ""
  {
    if name in r.headers then r.headers[name] else ""
  }

  /** `mux.Vars(r)[name]`: the empty string when the variable is absent. */
  function Var<B>(r: Request<B>, name: string): (v: string)
    ensures name !in r.vars ==> v == ""
  {
    if name in r.vars then r.vars[name] else ""
  }

  /** What a handler writes into the response body. */
  datatype Payload =
    | Text(msg: string)                                          // http.Error
    | UserCreated(id: string, name: string, email: string)       // signup success
    | EntryAdded(id: string, movieName: string, watched: bool)   // add success
    | EntryList(entries: seq<Watchlist>)                         // list success
    | Message(msg: string)                                       // update / delete success

  /** A response under construction: the status once one is written, and the body so far. */
  datatype Writer = Writer(status: Option<int>, body: seq<Payload>)

  const Unwritten := Writer(None, [])

  /** `http.Error(w, msg, code)`: the status sticks only if none was written before. */
  function Error(w: Writer, msg: string, code: int): (r: Writer)
    ensures w.status.Some? ==> r.status == w.status
    ensures w.status.None? ==> r.status == Some(code)
    ensures r.body == w.body + [Text(msg)]
  {
    Writer(if w.status.Some? then w.status else Some(code), w.body + [Text(msg)])
  }

  /** `json.NewEncoder(w).Encode(p)`: writing a body implies status 200 if none was written. */
  function Encode(w: Writer, p: Payload): (r: Writer)
    ensures w.status.Some? ==> r.status == w.status
    ensures w.status.None? ==> r.status == Some(StatusOK)
    ensures r.body == w.body + [p]
  {
    Writer(if w.status.Some? then w.status else Some(StatusOK), w.body + [p])
  }

  /** What the client receives. */
  datatype Reply = Sent(status: int, body: seq<Payload>) | Aborted

  /** The handler returned: a handler that wrote nothing still sends 200. */
  function Finish(w: Writer): Reply {
    Sent(w.status.GetOr(StatusOK), w.body)
  }

  /** A handler's effect: the reply and the collection as the handler leaves it. */
  datatype Outcome<S> = Outcome(reply: Reply, store: S)

  /** A one-shot `http.Error` followed by `return`. */
  function Reject<S>(code: int, msg: string, store: S): (o: Outcome<S>)
    ensures o.reply == Sent(code, [Text(msg)]) && o.store == store
  {
    assert Unwritten.body + [Text(msg)] == [Text(msg)];
    Outcome(Finish(Error(Unwritten, msg, code)), store)
  }

  // ---------------------------------------------------------------------------
  // Sequences of writes
  // ---------------------------------------------------------------------------

  /** One write a handler makes to the response: an `http.Error` or a JSON encode. */
  datatype Write = ErrorWrite(msg: string, code: int) | EncodeWrite(p: Payload)
  {
    /** The status the write sets on a writer that has none yet. */
    function Code(): int {
      if ErrorWrite? then code else StatusOK
    }

    /** What the write appends to the body. */
    function Written(): Payload {
      if ErrorWrite? then Text(msg) else p
    }
  }

  function Apply(w: Writer, x: Write): Writer {
    match x
    case ErrorWrite(msg, code) => Error(w, msg, code)
    case EncodeWrite(p) => Encode(w, p)
  }

  /** The writes, made one after another. */
  function Perform(w: Writer, writes: seq<Write>): Writer
    decreases |writes|
  {
    if writes == [] then w else Perform(Apply(w, writes[0]), writes[1..])
  }

  /** The payloads the writes append, in order. */
  function Payloads(writes: seq<Write>): seq<Payload>
    decreases |writes|
  {
    if writes == [] then [] else [writes[0].Written()] + Payloads(writes[1..])
  }

  /** Once a status is written, no later write changes it; the body collects every payload. */
  lemma {:induction false} PerformKeepsStatus(w: Writer, writes: seq<Write>)
    requires w.status.Some?
    ensures Perform(w, writes) == Writer(w.status, w.body + Payloads(writes))
    decreases |writes|
  {
    if writes != [] {
      var next := Apply(w, writes[0]);
      PerformKeepsStatus(next, writes[1..]);
      assert next.body + Payloads(writes[1..]) == w.body + Payloads(writes);
    }
  }

  /** Whatever a handler writes, the client gets the status of its FIRST write, 200 when that
      write is an encode or when nothing is written, and every payload in the order written. */
  lemma {:induction false} FirstStatusSent(writes: seq<Write>)
    ensures Finish(Perform(Unwritten, writes))
         == Sent(if writes == [] then StatusOK else writes[0].Code(), Payloads(writes))
  {
    if writes != [] {
      var next := Apply(Unwritten, writes[0]);
      PerformKeepsStatus(next, writes[1..]);
      assert next.body + Payloads(writes[1..]) == Payloads(writes);
    }
  }
}

=== FILE: model.dfy ===
/** The two records the handlers store: `Watchlist` (model/watchlist.go) and `User`
    (model/user.go), and the BSON documents the driver makes of them. A field tagged
    `omitempty` is left out of the document when it holds its type's zero value; a filter
    on that field then never matches the document, and decoding the document back gives
    the zero value again. */
module Models {
  import opened Wrappers
  import opened ObjectIds

  /** `model.Watchlist`: `_id` and `user_id` are ObjectIDs, `movie_name` a string, all three
      `omitempty`; `watched` is a bool without `omitempty`. */
  datatype Watchlist = Watchlist(id: ObjectId, userId: ObjectId, movieName: string, watched: bool)

  /** The stored fields of a watchlist document other than `_id`; `None` is an omitted field. */
  datatype Entry = Entry(userId: Option<ObjectId>, movieName: Option<string>, watched: bool)

  /** A whole watchlist document, as inserted or as the operand of `$set`. */
  datatype Document = Document(id: Option<ObjectId>, entry: Entry)

  /** `omitempty` for an ObjectID: the nil id is left out. */
  function OmitNilId(v: ObjectId): (r: Option<ObjectId>)
    ensures r.None? <==> v == NilObjectId
    ensures r.GetOr(NilObjectId) == v
  {
    if v == NilObjectId then None else Some(v)
  }

  /** `omitempty` for a string: the empty string is left out. */
  function OmitEmpty(s: string): (r: Option<string>)
    ensures r.None? <==> s == ""
    ensures r.GetOr("") == s
  {
    if s == "" then None else Some(s)
  }

  /** Decoding a stored document into `model.Watchlist`: a missing field is left at its
      zero value. Only a stored zero value is lost: on any other document, the omissions the
      record's tags would make give the stored fields back. */
  function Unmarshal(id: ObjectId, e: Entry): (w: Watchlist)
    ensures w.id == id && w.watched == e.watched
    ensures e.userId != Some(NilObjectId) ==> OmitNilId(w.userId) == e.userId
    ensures e.movieName != Some("") ==> OmitEmpty(w.movieName) == e.movieName
  {
    Watchlist(id, e.userId.GetOr(NilObjectId), e.movieName.GetOr(""), e.watched)
  }

  /** Encoding `model.Watchlist` with its struct tags. Every zero-valued `omitempty` field is
      dropped, `watched` is always written, and decoding the document gives the record back. */
  function Marshal(w: Watchlist): (d: Document)
    ensures d.id.None? <==> w.id == NilObjectId
    ensures d.entry.userId.None? <==> w.userId == NilObjectId
    ensures d.entry.movieName.None? <==> w.movieName == ""
    ensures d.entry.watched == w.watched
    ensures d.id.Some? ==> Unmarshal(d.id.value, d.entry) == w
  {
    Document(OmitNilId(w.id), Entry(OmitNilId(w.userId), OmitEmpty(w.movieName), w.watched))
  }

  /** A document the driver can have written: no field holds the zero value its
      `omitempty` tag would have dropped. */
  predicate Canonical(e: Entry) {
    e.userId != Some(NilObjectId) && e.movieName != Some("")
  }

  /** Decoding then encoding a canonical document gives it back: on documents this code
      writes, `Marshal` and `Unmarshal` are inverse in both directions. */
  lemma MarshalOfUnmarshal(id: ObjectId, e: Entry)
    requires id != NilObjectId && Canonical(e)
    ensures Marshal(Unmarshal(id, e)) == Document(Some(id), e)
  {
  }

  /** `$set` with a document: every field the document holds overwrites the stored one,
      every field it omits keeps its stored value. */
  function ApplySet(stored: Entry, update: Entry): (r: Entry)
    ensures Canonical(stored) && Canonical(update) ==> Canonical(r)
  {
    Entry(
      if update.userId.Some? then update.userId else stored.userId,
      if update.movieName.Some? then update.movieName else stored.movieName,
      update.watched)
  }

  /** The record-level meaning of a PATCH body under `$set`: a non-nil `user_id` and a
      non-empty `movie_name` replace the old ones, `watched` is always replaced, and the id
      stays. */
  function Patched(current: Watchlist, body: Watchlist): Watchlist {
    Watchlist(
      current.id,
      if body.userId != NilObjectId then body.userId else current.userId,
      if body.movieName != "" then body.movieName else current.movieName,
      body.watched)
  }

  /** `$set` of the marshalled PATCH body, seen through decoding, is `Patched`. */
  lemma SetOfMarshalIsPatched(id: ObjectId, stored: Entry, body: Watchlist)
    ensures Unmarshal(id, ApplySet(stored, Marshal(body).entry)) == Patched(Unmarshal(id, stored), body)
  {
  }

  /** `model.User`: only `_id` is `omitempty`. */
  datatype User = User(id: ObjectId, name: string, email: string, password: string)

  /** A stored user document other than `_id`: name, email and password are always written. */
  datatype UserDoc = UserDoc(name: string, email: string, password: string)
}

=== FILE: objectid.dfy ===
/** BSON ObjectIDs as the driver's `primitive` package handles them: 12 raw bytes, printed
    by `Hex()` as 24 lower-case hex digits and parsed by `ObjectIDFromHex`, which checks the
    BYTE length of its argument (Go's `len`) and then decodes it with `encoding/hex`. */
module ObjectIds {
  import opened Wrappers

  newtype byte = x: int | 0 <= x < 256

  type ObjectId = s: seq<byte> | |s| == 12 witness seq(12, i => 0)

  /** `primitive.NilObjectID`, the zero value of the type. */
  const NilObjectId: ObjectId := [0, 0, 0, 0, 0, 0, 0, 0, 0, 0, 0, 0]

  /** The ids `primitive.NewObjectID()` hands out: a timestamp, a process-unique value and a
      counter, never the nil id. Which one a call returns is a parameter of the model. */
  type NewId = id: ObjectId | id != NilObjectId witness [1, 0, 0, 0, 0, 0, 0, 0, 0, 0, 0, 0]

  const HexDigits := "0123456789abcdef"

  // ---------------------------------------------------------------------------
  // Encoding: ObjectID.Hex()
  // ---------------------------------------------------------------------------

  predicate IsLowerHexDigit(c: char) {
    '0' <= c <= '9' || 'a' <= c <= 'f'
  }

  lemma DigitIsLowerHex(k: nat)
    requires k < 16
    ensures IsLowerHexDigit(HexDigits[k])
  {
  }

  function HexPair(b: byte): (s: string)
    ensures |s| == 2 && IsLowerHexDigit(s[0]) && IsLowerHexDigit(s[1])
  {
    DigitIsLowerHex(b as int / 16);
    DigitIsLowerHex(b as int % 16);
    [HexDigits[b as int / 16], HexDigits[b as int % 16]]
  }

  function HexOf(bs: seq<byte>): (s: string)
    ensures |s| == 2 * |bs|
    ensures forall i :: 0 <= i < |s| ==> IsLowerHexDigit(s[i])
  {
    if bs == [] then "" else HexPair(bs[0]) + HexOf(bs[1..])
  }

  /** `ObjectID.Hex()`. */
  function Hex(id: ObjectId): (s: string)
    ensures |s| == 24
    ensures forall i :: 0 <= i < |s| ==> IsLowerHexDigit(s[i])
  {
    HexOf(id)
  }

  // ---------------------------------------------------------------------------
  // UTF-8: a Go string is the UTF-8 encoding of the characters it holds
  // ---------------------------------------------------------------------------

  function EncodeRune(c: char): (bs: seq<byte>)
    ensures 1 <= |bs| <= 4
    ensures c as int < 0x80 ==> bs == [c as int as byte]
    ensures c as int >= 0x80 ==> forall i :: 0 <= i < |bs| ==> bs[i] >= 0x80
  {
    var cp := c as int;
    if cp < 0x80 then [cp as byte]
    else if cp < 0x800 then [(0xC0 + cp / 0x40) as byte, (0x80 + cp % 0x40) as byte]
    else if cp < 0x10000 then
      [(0xE0 + cp / 0x1000) as byte, (0x80 + cp / 0x40 % 0x40) as byte, (0x80 + cp % 0x40) as byte]
    else
      [(0xF0 + cp / 0x40000) as byte, (0x80 + cp / 0x1000 % 0x40) as byte,
       (0x80 + cp / 0x40 % 0x40) as byte, (0x80 + cp % 0x40) as byte]
  }

  /** `[]byte(s)`. */
  function Utf8(s: string): (bs: seq<byte>)
    ensures |bs| >= |s|
  {
    if s == [] then [] else EncodeRune(s[0]) + Utf8(s[1..])
  }

  predicate IsAscii(s: string) {
    forall i :: 0 <= i < |s| ==> s[i] as int < 0x80
  }

  /** A string whose UTF-8 bytes are all below 0x80 is ASCII, and its bytes are its characters. */
  lemma {:induction false} Utf8OfAscii(s: string)
    requires forall i :: 0 <= i < |Utf8(s)| ==> Utf8(s)[i] < 0x80
    ensures IsAscii(s)
    ensures |Utf8(s)| == |s|
    ensures forall i :: 0 <= i < |s| ==> Utf8(s)[i] as int == s[i] as int
  {
    if s != [] {
      var head := EncodeRune(s[0]);
      assert Utf8(s) == head + Utf8(s[1..]);
      assert head[0] == Utf8(s)[0];
      forall i | 0 <= i < |Utf8(s[1..])|
        ensures Utf8(s[1..])[i] < 0x80
      {
        assert Utf8(s[1..])[i] == Utf8(s)[|head| + i];
      }
      Utf8OfAscii(s[1..]);
    }
  }

  // ---------------------------------------------------------------------------
  // Decoding: encoding/hex and ObjectIDFromHex
  // ---------------------------------------------------------------------------

  /** Why `ObjectIDFromHex` refused its argument: `ErrInvalidHex` (wrong byte length) or
      `hex.InvalidByteError` carrying the first byte that is not a hex digit (`hex.ErrLength`,
      an odd length, cannot reach it through `ObjectIDFromHex`). */
  datatype HexError = WrongLength | InvalidByte(b: byte) | OddLength

  /** `strconv.IsPrint` on the code points 0 to 255. */
  predicate IsPrintLatin1(b: byte) {
    (0x20 <= b <= 0x7E) || (0xA1 <= b && b != 0xAD)
  }

  /** `err.Error()` for the three errors: `ErrInvalidHex`, `InvalidByteError` (printed with
      Go's `%#U` verb, "U+0067 'g'") and `ErrLength`. */
  function HexErrorText(e: HexError): (t: string)
    ensures e.InvalidByte? ==>
              && |t| >= 34 && t[32] as int < 0x80 && t[33] as int < 0x80
              && HexValue(t[32] as int as byte).Some? && HexValue(t[33] as int as byte).Some?
              && HexValue(t[32] as int as byte).value * 16 + HexValue(t[33] as int as byte).value == e.b as int
  {
    match e
    case WrongLength => "the provided hex string is not a valid ObjectID"
    case OddLength => "encoding/hex: odd length hex string"
    case InvalidByte(b) =>
      UpperDigitValue(b as int / 16);
      UpperDigitValue(b as int % 16);
      "encoding/hex: invalid byte: U+00" + [UpperHexDigits[b as int / 16], UpperHexDigits[b as int % 16]]
      + (if IsPrintLatin1(b) then " '" + [b as int as char] + "'" else "")
  }

  /** The digits `%U` prints a code point with. */
  const UpperHexDigits := "0123456789ABCDEF"

  lemma UpperDigitValue(k: nat)
    requires k < 16
    ensures UpperHexDigits[k] as int < 0x80
    ensures HexValue(UpperHexDigits[k] as int as byte) == Some(k)
  {
  }

  /** Different errors read differently: the text tells which check failed and, for an
      invalid byte, which byte it was. */
  lemma HexErrorTextInjective(a: HexError, b: HexError)
    requires HexErrorText(a) == HexErrorText(b)
    ensures a == b
  {
    assert |HexErrorText(WrongLength)| == 47;
    assert |HexErrorText(OddLength)| == 35;
    if a.InvalidByte? || b.InvalidByte? {
      var x := if a.InvalidByte? then a else b;
      assert |HexErrorText(x)| in {34, 38};
    }
  }

  /** `fromHexChar` of encoding/hex: both cases of a-f are accepted. */
  function HexValue(b: byte): (v: Option<nat>)
    ensures v.Some? ==> v.value < 16
    ensures v.Some? <==> (0x30 <= b <= 0x39 || 0x61 <= b <= 0x66 || 0x41 <= b <= 0x46)
  {
    if 0x30 <= b <= 0x39 then Some(b as int - 0x30)
    else if 0x61 <= b <= 0x66 then Some(b as int - 0x61 + 10)
    else if 0x41 <= b <= 0x46 then Some(b as int - 0x41 + 10)
    else None
  }

  /** `hex.Decode`, which reads the input two bytes at a time and stops at the first byte
      that is not a hex digit; a lone last byte is checked and then reported as `ErrLength`. */
  function DecodeHex(raw: seq<byte>): (r: Result<seq<byte>, HexError>)
    ensures r.Success? ==> 2 * |r.value| == |raw|
    ensures r.Success? ==> forall i :: 0 <= i < |raw| ==> HexValue(raw[i]).Some?
    ensures r.Failure? ==> r.error != WrongLength
    ensures r.Failure? && r.error.InvalidByte? ==> HexValue(r.error.b).None?
  {
    if raw == [] then Success([])
    else if HexValue(raw[0]).None? then Failure(InvalidByte(raw[0]))
    else if |raw| == 1 then Failure(OddLength)
    else if HexValue(raw[1]).None? then Failure(InvalidByte(raw[1]))
    else
      var tail := DecodeHex(raw[2..]);
      if tail.Failure? then tail
      else Success([(HexValue(raw[0]).value * 16 + HexValue(raw[1]).value) as byte] + tail.value)
  }

  /** The converse: input of even length made only of hex digits always decodes. */
  lemma {:induction false} DecodeHexAcceptsDigits(raw: seq<byte>)
    requires |raw| % 2 == 0 && forall i :: 0 <= i < |raw| ==> HexValue(raw[i]).Some?
    ensures DecodeHex(raw).Success?
    decreases |raw|
  {
    if raw != [] {
      var rest := raw[2..];
      forall i | 0 <= i < |rest|
        ensures HexValue(rest[i]).Some?
      {
        assert rest[i] == raw[i + 2];
      }
      DecodeHexAcceptsDigits(rest);
    }
  }

  /** `primitive.ObjectIDFromHex`. */
  function FromHex(s: string): (r: Result<ObjectId, HexError>)
    ensures r.Success? ==> |s| == 24 && IsAscii(s)
    ensures |Utf8(s)| != 24 <==> r == Failure(WrongLength)
  {
    var raw := Utf8(s);
    if |raw| != 24 then Failure(WrongLength)
    else
      var decoded := DecodeHex(raw);
      if decoded.Failure? then Failure(decoded.error)
      else
        Utf8OfAscii(s);
        Success(decoded.value)
  }

  /** The UTF-8 encoding of ASCII text is its characters, one byte each. */
  lemma {:induction false} Utf8OfAsciiText(s: string)
    requires IsAscii(s)
    ensures |Utf8(s)| == |s|
    ensures forall i :: 0 <= i < |s| ==> Utf8(s)[i] == s[i] as int as byte
  {
    if s != [] {
      Utf8OfAsciiText(s[1..]);
      assert Utf8(s) == [s[0] as int as byte] + Utf8(s[1..]);
    }
  }

  /** Every text of 24 hex digits, in either case, is accepted. */
  lemma FromHexAccepts(s: string)
    requires |s| == 24 && IsAscii(s)
    requires forall i :: 0 <= i < |s| ==> HexValue(s[i] as int as byte).Some?
    ensures FromHex(s).Success?
  {
    Utf8OfAsciiText(s);
    DecodeHexAcceptsDigits(Utf8(s));
  }

  /** An id written in upper case is accepted. */
  lemma UpperCaseIdAccepted()
    ensures FromHex("0123456789ABCDEF01234567").Success?
  {
    var s := "0123456789ABCDEF01234567";
    assert forall i :: 0 <= i < |s| ==> ('0' <= s[i] <= '9' || 'A' <= s[i] <= 'F');
    FromHexAccepts(s);
  }

  function LowerHexChar(c: char): char {
    if 'A' <= c <= 'F' then (c as int + 32) as char else c
  }

  /** The lower-case form of a string of hex digits: the only form `Hex` produces. */
  function LowerHex(s: string): (r: string)
    ensures |r| == |s|
  {
    if s == [] then "" else [LowerHexChar(s[0])] + LowerHex(s[1..])
  }

  lemma {:induction false} Utf8Concat(a: string, b: string)
    ensures Utf8(a + b) == Utf8(a) + Utf8(b)
  {
    if a != [] {
      assert (a + b)[0] == a[0];
      assert (a + b)[1..] == a[1..] + b;
      Utf8Concat(a[1..], b);
      calc {
        Utf8(a + b);
        EncodeRune(a[0]) + Utf8(a[1..] + b);
        EncodeRune(a[0]) + (Utf8(a[1..]) + Utf8(b));
        (EncodeRune(a[0]) + Utf8(a[1..])) + Utf8(b);
      }
    } else {
      assert a + b == b;
    }
  }

  lemma DigitValue(k: nat)
    requires k < 16
    ensures HexDigits[k] as int < 0x80
    ensures HexValue(HexDigits[k] as int as byte) == Some(k)
  {
  }

  /** Decoding two hex digits in front of a decodable tail. */
  lemma DecodeHexCons(x: byte, y: byte, rest: seq<byte>)
    requires HexValue(x).Some? && HexValue(y).Some?
    requires DecodeHex(rest).Success?
    ensures DecodeHex([x, y] + rest)
         == Success([(HexValue(x).value * 16 + HexValue(y).value) as byte] + DecodeHex(rest).value)
  {
    var raw := [x, y] + rest;
    assert raw[0] == x && raw[1] == y && raw[2..] == rest;
    assert |raw| >= 2;
    var tail := DecodeHex(raw[2..]);
    assert tail == DecodeHex(rest);
  }

  lemma Utf8OfPair(b: byte)
    ensures Utf8(HexPair(b)) == DigitBytes(b)
  {
    var p := HexPair(b);
    DigitValue(b as int / 16);
    DigitValue(b as int % 16);
    assert p[1..][1..] == [];
    assert Utf8(p[1..]) == EncodeRune(p[1]) + Utf8([]);
  }

  lemma Utf8OfHexCons(bs: seq<byte>)
    requires bs != []
    ensures Utf8(HexOf(bs)) == DigitBytes(bs[0]) + Utf8(HexOf(bs[1..]))
  {
    Utf8Concat(HexPair(bs[0]), HexOf(bs[1..]));
    Utf8OfPair(bs[0]);
  }

  /** The two ASCII digits `Hex` prints for a byte. */
  function DigitBytes(b: byte): (r: seq<byte>)
    ensures |r| == 2
    ensures HexValue(r[0]) == Some(b as int / 16) && HexValue(r[1]) == Some(b as int % 16)
  {
    DigitValue(b as int / 16);
    DigitValue(b as int % 16);
    [HexDigits[b as int / 16] as int as byte, HexDigits[b as int % 16] as int as byte]
  }

  lemma ByteOfDigits(b: byte)
    ensures (b as int / 16 * 16 + b as int % 16) as byte == b
  {
  }

  /** One step of `DecodeHexOf`: the two digits of a byte in front decode to that byte. */
  lemma DecodeHexOfCons(b: byte, rest: seq<byte>, tail: seq<byte>)
    requires DecodeHex(rest) == Success(tail)
    ensures DecodeHex(DigitBytes(b) + rest) == Success([b] + tail)
  {
    var d := DigitBytes(b);
    DecodeHexCons(d[0], d[1], rest);
    assert [d[0], d[1]] == d;
    ByteOfDigits(b);
  }

  /** Decoding the UTF-8 bytes of `HexOf(bs)` gives `bs` back. */
  lemma {:induction false} DecodeHexOf(bs: seq<byte>)
    ensures DecodeHex(Utf8(HexOf(bs))) == Success(bs)
  {
    if bs != [] {
      DecodeHexOf(bs[1..]);
      Utf8OfHexCons(bs);
      DecodeHexOfCons(bs[0], Utf8(HexOf(bs[1..])), bs[1..]);
      assert [bs[0]] + bs[1..] == bs;
    }
  }

  /** Printing an id and parsing the text gives the id back. */
  lemma HexRoundTrip(id: ObjectId)
    ensures FromHex(Hex(id)) == Success(id)
  {
    DecodeHexOf(id);
  }

  lemma Utf8OfAsciiPair(s: string)
    requires |s| >= 2 && s[0] as int < 0x80 && s[1] as int < 0x80
    ensures Utf8(s) == [s[0] as int as byte, s[1] as int as byte] + Utf8(s[2..])
  {
    assert s[1..][1..] == s[2..];
  }

  lemma LowerDigit(c: char)
    requires c as int < 0x80 && HexValue(c as int as byte).Some?
    ensures HexDigits[HexValue(c as int as byte).value] == LowerHexChar(c)
  {
  }

  lemma SplitByte(v: int, hi: int, lo: int)
    requires 0 <= lo < 16 && v == hi * 16 + lo
    ensures v / 16 == hi && v % 16 == lo
  {
  }

  lemma PairOfDigits(hi: nat, lo: nat)
    requires hi < 16 && lo < 16
    ensures HexPair((hi * 16 + lo) as byte) == [HexDigits[hi], HexDigits[lo]]
  {
    SplitByte(hi * 16 + lo, hi, lo);
  }

  lemma DecodeHexTail(raw: seq<byte>)
    requires |raw| >= 2
    requires DecodeHex(raw).Success?
    ensures HexValue(raw[0]).Some? && HexValue(raw[1]).Some?
    ensures DecodeHex(raw[2..]).Success?
  {
  }

  lemma AsciiSuffix(s: string, k: nat)
    requires IsAscii(s) && k <= |s|
    ensures IsAscii(s[k..])
  {
    forall i | 0 <= i < |s| - k ensures s[k..][i] as int < 0x80 {
      assert s[k..][i] == s[i + k];
    }
  }

  /** Peeling the first two digits off a decodable ASCII string. */
  lemma DecodeAsciiPair(s: string)
    requires IsAscii(s) && |s| >= 2
    requires |Utf8(s)| == |s|
    requires DecodeHex(Utf8(s)).Success?
    ensures IsAscii(s[2..]) && |Utf8(s[2..])| == |s[2..]|
    ensures HexValue(s[0] as int as byte).Some? && HexValue(s[1] as int as byte).Some?
    ensures DecodeHex(Utf8(s[2..])).Success?
    ensures DecodeHex(Utf8(s)).value
         == [(HexValue(s[0] as int as byte).value * 16 + HexValue(s[1] as int as byte).value) as byte]
            + DecodeHex(Utf8(s[2..])).value
  {
    var rest := s[2..];
    var x, y := s[0] as int as byte, s[1] as int as byte;
    var raw := Utf8(s);
    Utf8OfAsciiPair(s);
    AsciiSuffix(s, 2);
    assert raw[2..] == Utf8(rest);
    DecodeHexTail(raw);
    assert DecodeHex(Utf8(rest)).Success?;
    DecodeHexCons(x, y, Utf8(rest));
    assert raw == [x, y] + Utf8(rest);
    assert DecodeHex(raw).value
        == [(HexValue(x).value * 16 + HexValue(y).value) as byte] + DecodeHex(Utf8(rest)).value;
    assert |Utf8(rest)| == |rest|;
  }

  lemma HexOfCons(v: byte, tail: seq<byte>)
    ensures HexOf([v] + tail) == HexPair(v) + HexOf(tail)
  {
    assert ([v] + tail)[0] == v && ([v] + tail)[1..] == tail;
  }

  lemma LowerHexPair(s: string)
    requires |s| >= 2
    ensures LowerHex(s) == [LowerHexChar(s[0]), LowerHexChar(s[1])] + LowerHex(s[2..])
  {
    assert s[1..][1..] == s[2..];
  }

  /** On an ASCII string of hex digits, printing what `hex.Decode` decoded gives the
      string back in lower case. */
  lemma {:induction false} HexOfDecoded(s: string)
    requires IsAscii(s)
    requires |Utf8(s)| == |s|
    requires DecodeHex(Utf8(s)).Success?
    ensures HexOf(DecodeHex(Utf8(s)).value) == LowerHex(s)
  {
    if s != [] {
      var rest := s[2..];
      assert |s| >= 2;
      DecodeAsciiPair(s);
      HexOfDecoded(rest);
      var hi, lo := HexValue(s[0] as int as byte).value, HexValue(s[1] as int as byte).value;
      var v := (hi * 16 + lo) as byte;
      var tail := DecodeHex(Utf8(rest)).value;
      HexOfCons(v, tail);
      PairOfDigits(hi, lo);
      LowerDigit(s[0]);
      LowerDigit(s[1]);
      LowerHexPair(s);
    }
  }

  /** Parsing succeeds only on a hex string, and printing the parsed id gives that string
      back in lower case: `Hex` and `FromHex` are inverse in both directions. */
  lemma HexOfParsed(s: string)
    requires FromHex(s).Success?
    ensures Hex(FromHex(s).value) == LowerHex(s)
  {
    Utf8OfAscii(s);
    HexOfDecoded(s);
  }
}

=== FILE: user.dfy ===
/** `SignupHandler` of controller/user.go as a transition of the `users` collection, a map
    from `_id` to the stored name, email and password.

    The password hash (bcrypt at its default cost) is a parameter: any function from the
    submitted password to its hash, or `None` when hashing fails. The fresh id and the
    driver's errors are parameters as in the watchlist handlers. */
module UserController {
  import opened Wrappers
  import opened ObjectIds
  import opened Models
  import opened Http
  import opened Driver

  type Users = map<ObjectId, UserDoc>

  type Hasher = string -> Option<string>

  /** `FindOne(ctx, bson.M{"email": email})` finds a document. `email` has no `omitempty`,
      so even the empty email matches a user stored with it. */
  predicate EmailTaken(users: Users, email: string) {
    exists k :: k in users && users[k].email == email
  }

  /** No two stored users share an email. */
  predicate UniqueEmails(users: Users) {
    forall a, b :: a in users && b in users && users[a].email == users[b].email ==> a == b
  }

  /** What Insert writes for the submitted user: the submitted name and email, and as password
      the hash of the submitted one, or the empty string when hashing failed. */
  function Hashed(user: User, hash: Hasher): UserDoc {
    UserDoc(user.name, user.email, hash(user.password).GetOr(""))
  }

  /** `SignupHandler`. A body that does not decode and a failed hash only write an error
      status: the handler goes on, and the user can still be stored, under that status. */
  function Signup(r: Request<User>, users: Users, newId: NewId, hash: Hasher, faults: Faults): (o: Outcome<Users>)
    ensures o.store == users || (newId !in users && o.store == users[newId := Hashed(r.body.value, hash)])
    ensures o.store != users ==> !EmailTaken(users, r.body.value.email)
    ensures faults.find.Some? || faults.write.Some? ==> o.store == users
    ensures o.reply.Sent? && o.reply.status == StatusOK ==> o.store != users
    ensures UniqueEmails(users) ==> UniqueEmails(o.store)
  {
    if r.verb != "POST" then Reject(StatusMethodNotAllowed, "Only POST allowed", users)
    else
      var user := r.body.value;
      var w := if r.body.err.Some? then Error(Unwritten, "Invalid json", StatusBadRequest) else Unwritten;
      if faults.find.Some? then
        Outcome(Finish(Error(w, "Database error", StatusInternalServerError)), users)
      else if EmailTaken(users, user.email) then
        Outcome(Finish(Error(w, "User already exists", StatusConflict)), users)
      else
        var w := if hash(user.password).None? then Error(w, "Error in hashing password", StatusInternalServerError) else w;
        if faults.write.Some? || newId in users then
          Outcome(Finish(Error(w, "Error saving user", StatusInternalServerError)), users)
        else
          var created := UserCreated(Hex(newId), user.name, user.email);
          Outcome(Finish(Encode(w, created)), users[newId := Hashed(user, hash)])
  }

  // ---------------------------------------------------------------------------
  // Properties of Signup
  // ---------------------------------------------------------------------------

  /** A method other than POST: 405, nothing stored. */
  lemma SignupWrongMethod(r: Request<User>, users: Users, newId: NewId, hash: Hasher, faults: Faults)
    requires r.verb != "POST"
    ensures Signup(r, users, newId, hash, faults) == Outcome(Sent(StatusMethodNotAllowed, [Text("Only POST allowed")]), users)
  {
  }

  /** A taken email: 409 with the fixed message, nothing stored. */
  lemma SignupEmailTaken(r: Request<User>, users: Users, newId: NewId, hash: Hasher, faults: Faults, k: ObjectId)
    requires r.verb == "POST" && r.body.err.None? && faults.find.None?
    requires k in users && users[k].email == r.body.value.email
    ensures Signup(r, users, newId, hash, faults) == Outcome(Sent(StatusConflict, [Text("User already exists")]), users)
  {
    assert Unwritten.body + [Text("User already exists")] == [Text("User already exists")];
  }

  /** A lookup error other than "no document": 500, nothing stored. */
  lemma SignupLookupFails(r: Request<User>, users: Users, newId: NewId, hash: Hasher, e: string)
    requires r.verb == "POST" && r.body.err.None?
    ensures Signup(r, users, newId, hash, Faults(Some(e), None, None))
         == Outcome(Sent(StatusInternalServerError, [Text("Database error")]), users)
  {
    assert Unwritten.body + [Text("Database error")] == [Text("Database error")];
  }

  /** A clean signup stores exactly one new user, under the fresh id, with the hash in place of
      the submitted password, and answers 200 with the id, name and email only. */
  lemma SignupStoresHash(r: Request<User>, users: Users, newId: NewId, hash: Hasher, hashed: string)
    requires r.verb == "POST" && r.body.err.None? && hash(r.body.value.password) == Some(hashed)
    requires !EmailTaken(users, r.body.value.email) && newId !in users
    ensures var o := Signup(r, users, newId, hash, NoFaults);
            var user := r.body.value;
            && o.store.Keys == users.Keys + {newId}
            && o.store[newId] == UserDoc(user.name, user.email, hashed)
            && (forall k :: k in users ==> o.store[k] == users[k])
            && o.reply == Sent(StatusOK, [UserCreated(Hex(newId), user.name, user.email)])
  {
    var created := UserCreated(Hex(newId), r.body.value.name, r.body.value.email);
    assert Unwritten.body + [created] == [created];
  }

  /** Every text the handler can send. */
  const SignupTexts: set<string> :=
    {"Only POST allowed", "Invalid json", "Database error", "User already exists",
     "Error in hashing password", "Error saving user"}

  /** The reply never carries the password or its hash: its body holds only the handler's fixed
      error texts and at most the new user's id, name and email. */
  lemma SignupReplyHasNoPassword(r: Request<User>, users: Users, newId: NewId, hash: Hasher, faults: Faults)
    ensures var o := Signup(r, users, newId, hash, faults);
            o.reply.Sent? && forall p :: p in o.reply.body ==>
              (p.Text? && p.msg in SignupTexts) || p == UserCreated(Hex(newId), r.body.value.name, r.body.value.email)
  {
  }

  /** A body that does not decode gets status 400, but the handler does not return: the
      partly decoded user is still looked up, hashed and stored, after the error text. */
  lemma SignupBadJsonStillStores(r: Request<User>, users: Users, newId: NewId, hash: Hasher, e: string)
    requires r.verb == "POST" && r.body.err == Some(e) && hash(r.body.value.password).Some?
    requires !EmailTaken(users, r.body.value.email) && newId !in users
    ensures var o := Signup(r, users, newId, hash, NoFaults);
            && o.store == users[newId := Hashed(r.body.value, hash)]
            && o.reply == Sent(StatusBadRequest, [Text("Invalid json"), UserCreated(Hex(newId), r.body.value.name, r.body.value.email)])
  {
  }

  /** A failed hash gets status 500, but the handler does not return: the user is stored with
      an empty password. */
  lemma SignupHashFailureStoresEmptyPassword(r: Request<User>, users: Users, newId: NewId, hash: Hasher)
    requires r.verb == "POST" && r.body.err.None? && hash(r.body.value.password).None?
    requires !EmailTaken(users, r.body.value.email) && newId !in users
    ensures var o := Signup(r, users, newId, hash, NoFaults);
            && newId in o.store && o.store[newId].password == ""
            && o.reply.Sent? && o.reply.status == StatusInternalServerError
  {
  }

  // ---------------------------------------------------------------------------
  // Sequences of signups
  // ---------------------------------------------------------------------------

  /** One signup request with what the environment decides for it. */
  datatype SignupCall = SignupCall(r: Request<User>, newId: NewId, faults: Faults)

  /** The users collection after the signups, served one at a time in order. */
  function SignupRun(users: Users, hash: Hasher, calls: seq<SignupCall>): Users
    decreases |calls|
  {
    if calls == [] then users
    else
      var c := calls[0];
      SignupRun(Signup(c.r, users, c.newId, hash, c.faults).store, hash, calls[1..])
  }

  /** Served one at a time, signups never give two users the same email. */
  lemma {:induction false} SignupRunKeepsEmailsUnique(users: Users, hash: Hasher, calls: seq<SignupCall>)
    requires UniqueEmails(users)
    ensures UniqueEmails(SignupRun(users, hash, calls))
    decreases |calls|
  {
    if calls != [] {
      var c := calls[0];
      SignupRunKeepsEmailsUnique(Signup(c.r, users, c.newId, hash, c.faults).store, hash, calls[1..]);
    }
  }
}

=== FILE: watchlist.dfy ===
/** The four watchlist handlers of controller/watchlist.go as transitions of the `watchlist`
    collection, which is a map from `_id` to the rest of the stored document.

    Everything the collection does not decide is a parameter: the id `primitive.NewObjectID`
    returns (`newId`), the order the server's cursor returns documents in (`scan`), the
    errors the driver reports (`faults`) and the wording of the write errors whose occurrence
    the collection does decide (`errs`). The driver calls used have plain equality semantics:
    a filter on a field matches a document that holds that field with that value. */
module WatchlistController {
  import opened Wrappers
  import opened ObjectIds
  import opened Models
  import opened Http
  import opened Driver
  import opened Auth

  type Store = map<ObjectId, Entry>

  /** What every document these handlers write looks like: `_id` is never the nil id (ids are
      fresh), and no field holds a zero value its `omitempty` tag drops. */
  predicate WellFormed(store: Store) {
    NilObjectId !in store && forall k :: k in store ==> Canonical(store[k])
  }

  /** `FindOne(ctx, bson.M{"movie_name": name})` finds a document: some stored document has
      that `movie_name`, whoever owns it. */
  predicate NameTaken(store: Store, name: string) {
    exists k :: k in store && store[k].movieName == Some(name)
  }

  /** `id, _ := primitive.ObjectIDFromHex(s)`: a malformed id silently becomes the nil id. */
  function ParseIdOrNil(s: string): (id: ObjectId)
    ensures FromHex(s).Success? ==> id == FromHex(s).value
    ensures FromHex(s).Failure? ==> id == NilObjectId
  {
    match FromHex(s)
    case Success(v) => v
    case Failure(_) => NilObjectId
  }

  /** The path id of a URL built from `Hex()` selects that document, and any id the parser
      accepts selects the document whose printed id is the path id in lower case; everything
      else selects the nil id. */
  lemma ParseIdOrNilRoundTrip(id: ObjectId, s: string)
    ensures ParseIdOrNil(Hex(id)) == id
    ensures FromHex(s).Success? ==> Hex(ParseIdOrNil(s)) == LowerHex(s)
    ensures FromHex(s).Failure? ==> ParseIdOrNil(s) == NilObjectId
  {
    HexRoundTrip(id);
    if FromHex(s).Success? {
      HexOfParsed(s);
    }
  }

  // ---------------------------------------------------------------------------
  // AddWatchlistHandler
  // ---------------------------------------------------------------------------

  /** The record Add inserts: the body with `ID` replaced by the fresh id and `UserID` by the
      caller's id, whatever the body said. */
  function Stamped(body: Watchlist, newId: NewId, caller: ObjectId): (w: Watchlist)
    ensures Marshal(w).id.Some? && Marshal(w).id.value == newId
    ensures Unmarshal(newId, Marshal(w).entry) == Watchlist(newId, caller, body.movieName, body.watched)
  {
    body.(id := newId, userId := caller)
  }

  /** `AddWatchlistHandler`. The store either stays as it is, or gains exactly one document
      under the fresh id, which no document had before; the latter happens exactly when the
      reply is 200. */
  function Add(r: Request<Watchlist>, store: Store, newId: NewId, faults: Faults, errs: ServerErrors): (o: Outcome<Store>)
    ensures o.store == store || (newId !in store && o.store.Keys == store.Keys + {newId}
                                 && forall k :: k in store ==> o.store[k] == store[k])
    ensures o.store != store <==> o.reply.Sent? && o.reply.status == StatusOK
    ensures WellFormed(store) ==> WellFormed(o.store)
  {
    if r.verb != "POST" then Reject(StatusMethodNotAllowed, "Only post method allowed", store)
    else if r.body.err.Some? then
      Reject(StatusInternalServerError, "json parsing error: " + r.body.err.value, store)
    else
      var body := r.body.value;
      // a failed FindOne is not the "found" case: the handler goes on to insert
      if faults.find.None? && NameTaken(store, body.movieName) then
        Reject(StatusConflict, "Movie already in the wartchlist", store)
      else if UserIDKey !in r.ctx then
        Outcome(Aborted, store)  // the `.(string)` type assertion panics
      else
        match FromHex(r.ctx[UserIDKey])
        case Failure(e) =>
          Reject(StatusBadRequest, "Invalid user ID format" + HexErrorText(e), store)
        case Success(caller) =>
          var w := Stamped(body, newId, caller);
          if faults.write.Some? then
            Reject(StatusInternalServerError, "Error saving watchlist: " + faults.write.value, store)
          else if newId in store then
            Reject(StatusInternalServerError, "Error saving watchlist: " + errs.duplicateKey, store)
          else
            var reply := Finish(Encode(Unwritten, EntryAdded(Hex(newId), w.movieName, w.watched)));
            Outcome(reply, store[newId := Marshal(w).entry])
  }

  // ---------------------------------------------------------------------------
  // GetAllWatchlist
  // ---------------------------------------------------------------------------

  /** `Find(ctx, bson.M{"user_id": owner})` followed by `cursor.All`: the decoded documents
      whose `user_id` is `owner`, in the order the cursor visits the ids in `scan`. */
  function FindByOwner(store: Store, scan: seq<ObjectId>, owner: ObjectId): (found: seq<Watchlist>)
    ensures |found| <= |scan|
    ensures forall w :: w in found ==>
              w.id in store && w.id in scan && store[w.id].userId == Some(owner) && w == Unmarshal(w.id, store[w.id])
    ensures forall k :: k in scan && k in store && store[k].userId == Some(owner) ==> Unmarshal(k, store[k]) in found
  {
    if scan == [] then []
    else
      var rest := FindByOwner(store, scan[1..], owner);
      var k := scan[0];
      if k in store && store[k].userId == Some(owner) then [Unmarshal(k, store[k])] + rest else rest
  }

  /** `GetAllWatchlist`. It never changes the store. */
  function List(r: Request<Watchlist>, store: Store, scan: seq<ObjectId>, faults: Faults): (o: Outcome<Store>)
    ensures o.store == store
  {
    if r.verb != "GET" then Reject(StatusMethodNotAllowed, "Only GET method is allowed", store)
    else if UserIDKey !in r.ctx then Outcome(Aborted, store)  // the `.(string)` type assertion panics
    else
      var parsed := FromHex(r.ctx[UserIDKey]);
      // a malformed caller id writes 400 and carries on with the nil id
      var w := if parsed.Failure? then Error(Unwritten, "Something went wrong", StatusBadRequest) else Unwritten;
      var owner := ParseIdOrNil(r.ctx[UserIDKey]);
      if faults.find.Some? then
        Outcome(Aborted, store)  // 500 is written, then the nil cursor is dereferenced
      else if faults.cursor.Some? then
        Outcome(Finish(Error(w, "Error decoding watchlists: " + faults.cursor.value, StatusInternalServerError)), store)
      else
        Outcome(Finish(Encode(w, EntryList(FindByOwner(store, scan, owner)))), store)
  }

  // ---------------------------------------------------------------------------
  // UpdateWatchList
  // ---------------------------------------------------------------------------

  /** `UpdateWatchList`. Only the document with the path id can change; nothing checks that it
      belongs to the caller, whose id the handler never reads. */
  function Update(r: Request<Watchlist>, store: Store, faults: Faults, errs: ServerErrors): (o: Outcome<Store>)
    ensures var target := ParseIdOrNil(Var(r, "id"));
            forall k :: k != target ==> (k in o.store <==> k in store) && (k in store ==> o.store[k] == store[k])
    ensures o.store.Keys == store.Keys
    ensures WellFormed(store) ==> WellFormed(o.store)
    ensures r.body.err.Some? || faults.write.Some? ==> o.store == store
    ensures o.store != store ==> o.reply == Sent(StatusOK, [Message("Watchlist updated successfully")])
    ensures var target := ParseIdOrNil(Var(r, "id"));
            r.verb == "PATCH" && r.body.err.None? && faults.write.None? && target in store
            && (r.body.value.id == NilObjectId || r.body.value.id == target)
            ==> o.store == store[target := ApplySet(store[target], Marshal(r.body.value).entry)]
  {
    if r.verb != "PATCH" then Reject(StatusMethodNotAllowed, "Only PATCH method is required", store)
    else
      var target := ParseIdOrNil(Var(r, "id"));
      if r.body.err.Some? then Reject(StatusInternalServerError, "error in json data", store)
      else if faults.write.Some? then
        Reject(StatusInternalServerError, "Error in updating the watchlist: " + faults.write.value, store)
      else if target !in store then Reject(StatusNotFound, "No watchlist found with that ID", store)
      else
        var update := Marshal(r.body.value);
        if update.id.Some? && update.id.value != target then
          Reject(StatusInternalServerError, "Error in updating the watchlist: " + errs.immutableId, store)
        else
          assert Unwritten.body + [Message("Watchlist updated successfully")] == [Message("Watchlist updated successfully")];
          var reply := Finish(Encode(Unwritten, Message("Watchlist updated successfully")));
          Outcome(reply, store[target := ApplySet(store[target], update.entry)])
  }

  // ---------------------------------------------------------------------------
  // DeleteWatchlist
  // ---------------------------------------------------------------------------

  /** `DeleteWatchlist`. It has no method check of its own and no ownership check. It removes
      the document with the path id if there is one, and nothing else. */
  function Delete(r: Request<Watchlist>, store: Store, faults: Faults): (o: Outcome<Store>)
    ensures var target := ParseIdOrNil(Var(r, "id"));
            o.store == store || (target in store && o.store == store - {target})
    ensures |o.store| >= |store| - 1
    ensures WellFormed(store) ==> WellFormed(o.store)
    ensures var target := ParseIdOrNil(Var(r, "id"));
            faults.write.None? && target in store ==> o.store == store - {target}
  {
    var target := ParseIdOrNil(Var(r, "id"));
    if faults.write.Some? then Reject(StatusInternalServerError, "Failed to delete the watchlist", store)
    else if target !in store then Reject(StatusNotFound, "No watchlist to delete", store)
    else Outcome(Finish(Encode(Unwritten, Message("Watchlist deleted successfully"))), store - {target})
  }

  // ---------------------------------------------------------------------------
  // Properties of Add
  // ---------------------------------------------------------------------------

  /** A method other than POST: Add answers 405 before anything else and changes nothing. */
  lemma AddWrongMethod(r: Request<Watchlist>, store: Store, newId: NewId, faults: Faults, errs: ServerErrors)
    requires r.verb != "POST"
    ensures Add(r, store, newId, faults, errs) == Outcome(Sent(StatusMethodNotAllowed, [Text("Only post method allowed")]), store)
  {
  }

  /** The duplicate check is global: once some document, whoever owns it, holds the name, Add
      answers 409 and changes nothing, for every caller, even before it looks at the caller's
      id at all. */
  lemma AddConflictIgnoresOwner(r: Request<Watchlist>, store: Store, newId: NewId, faults: Faults, errs: ServerErrors, k: ObjectId)
    requires r.verb == "POST" && r.body.err.None? && faults.find.None?
    requires k in store && store[k].movieName == Some(r.body.value.movieName)
    ensures forall c: Context ::
              Add(r.(ctx := c), store, newId, faults, errs)
              == Outcome(Sent(StatusConflict, [Text("Movie already in the wartchlist")]), store)
  {
  }

  /** A caller id that is not a hex ObjectID gives 400 and inserts nothing, but only when the
      duplicate check has let the request through. */
  lemma AddBadCallerIdRejected(r: Request<Watchlist>, store: Store, newId: NewId, faults: Faults, errs: ServerErrors)
    requires r.verb == "POST" && r.body.err.None?
    requires !(faults.find.None? && NameTaken(store, r.body.value.movieName))
    requires UserIDKey in r.ctx && FromHex(r.ctx[UserIDKey]).Failure?
    ensures var o := Add(r, store, newId, faults, errs);
            o.store == store && o.reply.Sent? && o.reply.status == StatusBadRequest
  {
  }

  /** A successful Add stores the body under the fresh id and the caller's id, whatever `id`
      and `user_id` the body carried; name and `watched` come from the body, and the reply
      echoes the new id in hex. */
  lemma AddInsertsStamped(r: Request<Watchlist>, store: Store, newId: NewId, faults: Faults, errs: ServerErrors, caller: ObjectId)
    requires UserIDKey in r.ctx && FromHex(r.ctx[UserIDKey]) == Success(caller)
    requires Add(r, store, newId, faults, errs).store != store
    ensures var o := Add(r, store, newId, faults, errs);
            var body := r.body.value;
            && newId !in store && newId in o.store
            && Unmarshal(newId, o.store[newId]) == Watchlist(newId, caller, body.movieName, body.watched)
            && o.reply == Sent(StatusOK, [EntryAdded(Hex(newId), body.movieName, body.watched)])
  {
  }

  /** Add succeeds exactly when the method is POST, the body decodes, the name is free (or the
      lookup failed), the caller id parses, and the insert goes through on an unused id. */
  lemma AddSucceedsIff(r: Request<Watchlist>, store: Store, newId: NewId, faults: Faults, errs: ServerErrors)
    ensures Add(r, store, newId, faults, errs).reply.Sent? && Add(r, store, newId, faults, errs).reply.status == StatusOK
            <==> && r.verb == "POST" && r.body.err.None?
                 && !(faults.find.None? && NameTaken(store, r.body.value.movieName))
                 && UserIDKey in r.ctx && FromHex(r.ctx[UserIDKey]).Success?
                 && faults.write.None? && newId !in store
  {
  }

  /** An empty movie name is dropped from every stored document, so the lookup for it never
      finds one: a nameless entry can be added any number of times. */
  lemma EmptyNameNeverTaken(store: Store)
    requires WellFormed(store)
    ensures !NameTaken(store, "")
  {
  }

  /** No two documents share a movie name. */
  predicate UniqueNames(store: Store) {
    forall a, b :: a in store && b in store && store[a].movieName.Some? && store[a].movieName == store[b].movieName ==> a == b
  }

  /** When the lookup works, Add never creates a second document with a name already taken. */
  lemma AddKeepsNamesUnique(r: Request<Watchlist>, store: Store, newId: NewId, faults: Faults, errs: ServerErrors)
    requires faults.find.None? && UniqueNames(store)
    ensures UniqueNames(Add(r, store, newId, faults, errs).store)
  {
  }

  /** ... but a lookup that fails lets a duplicate in: the check is skipped, not failed. */
  lemma FailedLookupAllowsDuplicate(r: Request<Watchlist>, store: Store, newId: NewId, errs: ServerErrors, k: ObjectId, caller: ObjectId)
    requires r.verb == "POST" && r.body.err.None? && r.body.value.movieName != ""
    requires k in store && store[k].movieName == Some(r.body.value.movieName)
    requires UserIDKey in r.ctx && FromHex(r.ctx[UserIDKey]) == Success(caller) && newId !in store
    ensures var o := Add(r, store, newId, Faults(Some("connection reset"), None, None), errs);
            o.reply.Sent? && o.reply.status == StatusOK && !UniqueNames(o.store)
  {
  }

  // ---------------------------------------------------------------------------
  // Properties of List
  // ---------------------------------------------------------------------------

  /** A method other than GET: 405, even without a caller id in the context. */
  lemma ListWrongMethod(r: Request<Watchlist>, store: Store, scan: seq<ObjectId>, faults: Faults)
    requires r.verb != "GET"
    ensures List(r, store, scan, faults) == Outcome(Sent(StatusMethodNotAllowed, [Text("Only GET method is allowed")]), store)
  {
  }

  /** When every stored id comes out of the cursor, List answers 200 with exactly the caller's
      documents: each listed record is a stored document owned by the caller, and each stored
      document owned by the caller is listed. */
  lemma ListIsScopedToCaller(r: Request<Watchlist>, store: Store, scan: seq<ObjectId>, caller: ObjectId)
    requires r.verb == "GET" && UserIDKey in r.ctx && FromHex(r.ctx[UserIDKey]) == Success(caller)
    requires forall k :: k in store ==> k in scan
    ensures var o := List(r, store, scan, NoFaults);
            && o.reply.Sent? && o.reply.status == StatusOK && |o.reply.body| == 1 && o.reply.body[0].EntryList?
            && (forall w :: w in o.reply.body[0].entries ==>
                  w.userId == caller && w.id in store && Unmarshal(w.id, store[w.id]) == w)
            && (forall k :: k in store && store[k].userId == Some(caller) ==>
                  Unmarshal(k, store[k]) in o.reply.body[0].entries)
  {
  }

  /** No two records in the list have the same id. */
  predicate DistinctIds(ws: seq<Watchlist>) {
    forall i, j :: 0 <= i < j < |ws| ==> ws[i].id != ws[j].id
  }

  /** A cursor that visits each id once lists each document once. */
  lemma {:induction false} FindByOwnerDistinct(store: Store, scan: seq<ObjectId>, owner: ObjectId)
    requires forall i, j :: 0 <= i < j < |scan| ==> scan[i] != scan[j]
    ensures DistinctIds(FindByOwner(store, scan, owner))
  {
    if scan != [] {
      assert forall i, j :: 0 <= i < j < |scan[1..]| ==> scan[1..][i] != scan[1..][j] by {
        forall i, j | 0 <= i < j < |scan[1..]| ensures scan[1..][i] != scan[1..][j] {
          assert scan[1..][i] == scan[i + 1] && scan[1..][j] == scan[j + 1];
        }
      }
      FindByOwnerDistinct(store, scan[1..], owner);
      var rest := FindByOwner(store, scan[1..], owner);
      var k := scan[0];
      if k in store && store[k].userId == Some(owner) {
        var found := [Unmarshal(k, store[k])] + rest;
        assert k !in scan[1..] by {
          forall m | 0 <= m < |scan[1..]| ensures scan[1..][m] != k {
            assert scan[1..][m] == scan[m + 1];
          }
        }
        forall i, j | 0 <= i < j < |found| ensures found[i].id != found[j].id {
          if i == 0 {
            assert found[j] == rest[j - 1] && rest[j - 1] in rest;
            assert found[j].id in scan[1..];
            assert found[i].id == k;
          } else {
            assert found[i] == rest[i - 1] && found[j] == rest[j - 1];
            assert rest[i - 1].id != rest[j - 1].id;
          }
        }
      }
    }
  }

  /** A caller id that is not a hex ObjectID gets status 400, and, as the handler carries on
      with the nil id, which no stored document has as owner, an empty list after the error. */
  lemma ListBadCallerIdListsNothing(r: Request<Watchlist>, store: Store, scan: seq<ObjectId>)
    requires WellFormed(store)
    requires r.verb == "GET" && UserIDKey in r.ctx && FromHex(r.ctx[UserIDKey]).Failure?
    ensures List(r, store, scan, NoFaults).reply
         == Sent(StatusBadRequest, [Text("Something went wrong"), EntryList([])])
  {
    NothingOwnedByNil(store, scan);
    var w := Error(Unwritten, "Something went wrong", StatusBadRequest);
    assert w.body == [Text("Something went wrong")];
    assert ParseIdOrNil(r.ctx[UserIDKey]) == NilObjectId;
  }

  /** Stored documents never have the nil id as owner, so a lookup for it finds nothing. */
  lemma NothingOwnedByNil(store: Store, scan: seq<ObjectId>)
    requires WellFormed(store)
    ensures FindByOwner(store, scan, NilObjectId) == []
  {
  }

  /** A failed `Find` writes 500 and then dereferences the nil cursor: the handler panics. */
  lemma ListFindFaultAborts(r: Request<Watchlist>, store: Store, scan: seq<ObjectId>, e: string)
    requires r.verb == "GET" && UserIDKey in r.ctx
    ensures List(r, store, scan, Faults(Some(e), None, None)).reply == Aborted
  {
  }

  // ---------------------------------------------------------------------------
  // Properties of Update
  // ---------------------------------------------------------------------------

  /** A method other than PATCH: 405 and no change. */
  lemma UpdateWrongMethod(r: Request<Watchlist>, store: Store, faults: Faults, errs: ServerErrors)
    requires r.verb != "PATCH"
    ensures Update(r, store, faults, errs) == Outcome(Sent(StatusMethodNotAllowed, [Text("Only PATCH method is required")]), store)
  {
  }

  /** Update answers 404 exactly when the request got as far as the update and no document has
      the path id; it then changes nothing. */
  lemma UpdateNotFoundIff(r: Request<Watchlist>, store: Store, faults: Faults, errs: ServerErrors)
    ensures var o := Update(r, store, faults, errs);
            o.reply == Sent(StatusNotFound, [Text("No watchlist found with that ID")])
            <==> r.verb == "PATCH" && r.body.err.None? && faults.write.None? && ParseIdOrNil(Var(r, "id")) !in store
    ensures var o := Update(r, store, faults, errs);
            o.reply.Sent? && o.reply.status == StatusNotFound ==> o.store == store
  {
  }

  /** A path id that is not a hex ObjectID becomes the nil id, which no stored document has:
      404 and no change. */
  lemma UpdateBadIdNotFound(r: Request<Watchlist>, store: Store, faults: Faults, errs: ServerErrors)
    requires WellFormed(store)
    requires r.verb == "PATCH" && r.body.err.None? && faults.write.None? && FromHex(Var(r, "id")).Failure?
    ensures Update(r, store, faults, errs) == Outcome(Sent(StatusNotFound, [Text("No watchlist found with that ID")]), store)
  {
  }

  /** A successful Update rewrites the one matched document as `$set` of the marshalled body
      does, which is `Patched`: a non-nil `user_id` hands the entry to that user, a non-empty
      name replaces the old one, an empty one keeps it, and `watched` always takes the body's
      value, so a body without it resets the flag. */
  lemma UpdateSetsPresentFields(r: Request<Watchlist>, store: Store, faults: Faults, errs: ServerErrors)
    requires Update(r, store, faults, errs).reply.Sent? && Update(r, store, faults, errs).reply.status == StatusOK
    ensures var o := Update(r, store, faults, errs);
            var target := ParseIdOrNil(Var(r, "id"));
            var before := Unmarshal(target, store[target]);
            var body := r.body.value;
            && target in store && target in o.store
            && Unmarshal(target, o.store[target]) == Patched(before, body)
  {
  }

  /** The body's `id` may only repeat the path id: any other non-nil id makes the server refuse
      to change `_id`, and the handler answers 500. */
  lemma UpdateCannotMoveId(r: Request<Watchlist>, store: Store, faults: Faults, errs: ServerErrors)
    requires r.verb == "PATCH" && r.body.err.None? && faults.write.None?
    requires ParseIdOrNil(Var(r, "id")) in store
    requires r.body.value.id != NilObjectId && r.body.value.id != ParseIdOrNil(Var(r, "id"))
    ensures Update(r, store, faults, errs)
         == Outcome(Sent(StatusInternalServerError, [Text("Error in updating the watchlist: " + errs.immutableId)]), store)
  {
  }

  /** The normal case: a PATCH whose body decodes and does not try to move the `_id`, sent to a
      stored path id with the driver working, answers 200 with the success message and applies
      `$set` of the encoded body to that document alone. */
  lemma UpdateSucceeds(r: Request<Watchlist>, store: Store, errs: ServerErrors)
    requires r.verb == "PATCH" && r.body.err.None?
    requires ParseIdOrNil(Var(r, "id")) in store
    requires r.body.value.id == NilObjectId || r.body.value.id == ParseIdOrNil(Var(r, "id"))
    ensures var target := ParseIdOrNil(Var(r, "id"));
            var updated := store[target := ApplySet(store[target], Marshal(r.body.value).entry)];
            Update(r, store, NoFaults, errs) == Outcome(Sent(StatusOK, [Message("Watchlist updated successfully")]), updated)
  {
    assert Unwritten.body + [Message("Watchlist updated successfully")] == [Message("Watchlist updated successfully")];
  }

  /** No ownership check: the caller's identity has no effect on what Update does. */
  lemma UpdateIgnoresCaller(r: Request<Watchlist>, store: Store, faults: Faults, errs: ServerErrors, c: Context)
    ensures Update(r.(ctx := c), store, faults, errs) == Update(r, store, faults, errs)
  {
  }

  // ---------------------------------------------------------------------------
  // Properties of Delete
  // ---------------------------------------------------------------------------

  /** Delete answers 404 exactly when no document has the path id, and 200 exactly when it
      removed that document; other documents are never touched. */
  lemma DeleteOutcomes(r: Request<Watchlist>, store: Store, faults: Faults)
    ensures var o := Delete(r, store, faults);
            o.reply == Sent(StatusNotFound, [Text("No watchlist to delete")])
            <==> faults.write.None? && ParseIdOrNil(Var(r, "id")) !in store
    ensures var o := Delete(r, store, faults);
            var target := ParseIdOrNil(Var(r, "id"));
            o.reply.Sent? && o.reply.status == StatusOK
            <==> target in store && target !in o.store
    ensures var o := Delete(r, store, faults);
            forall k :: k in store && k != ParseIdOrNil(Var(r, "id")) ==> k in o.store && o.store[k] == store[k]
  {
  }

  /** The normal case: with the driver working, a stored path id is removed, every other
      document is kept, and the reply is 200 with the success message. */
  lemma DeleteRemoves(r: Request<Watchlist>, store: Store)
    requires ParseIdOrNil(Var(r, "id")) in store
    ensures Delete(r, store, NoFaults)
         == Outcome(Sent(StatusOK, [Message("Watchlist deleted successfully")]), store - {ParseIdOrNil(Var(r, "id"))})
  {
    assert Unwritten.body + [Message("Watchlist deleted successfully")] == [Message("Watchlist deleted successfully")];
  }

  /** A malformed path id deletes nothing. */
  lemma DeleteBadIdNotFound(r: Request<Watchlist>, store: Store)
    requires WellFormed(store) && FromHex(Var(r, "id")).Failure?
    ensures Delete(r, store, NoFaults) == Outcome(Sent(StatusNotFound, [Text("No watchlist to delete")]), store)
  {
  }

  /** No ownership check, and no method check either: neither the caller nor the HTTP method
      has any effect on what Delete does. */
  lemma DeleteIgnoresCallerAndMethod(r: Request<Watchlist>, store: Store, faults: Faults, c: Context, verb: string)
    ensures Delete(r.(ctx := c, verb := verb), store, faults) == Delete(r, store, faults)
  {
  }

  // ---------------------------------------------------------------------------
  // Sequences of requests
  // ---------------------------------------------------------------------------

  /** One request to one of the four handlers, with what the environment decides for it. */
  datatype Call =
    | AddCall(r: Request<Watchlist>, newId: NewId, faults: Faults)
    | ListCall(r: Request<Watchlist>, scan: seq<ObjectId>, faults: Faults)
    | UpdateCall(r: Request<Watchlist>, faults: Faults)
    | DeleteCall(r: Request<Watchlist>, faults: Faults)

  function Step(store: Store, errs: ServerErrors, c: Call): (o: Outcome<Store>)
    ensures WellFormed(store) ==> WellFormed(o.store)
  {
    match c
    case AddCall(r, newId, faults) => Add(r, store, newId, faults, errs)
    case ListCall(r, scan, faults) => List(r, store, scan, faults)
    case UpdateCall(r, faults) => Update(r, store, faults, errs)
    case DeleteCall(r, faults) => Delete(r, store, faults)
  }

  /** The collection after the requests, served one at a time in order. */
  function Run(store: Store, errs: ServerErrors, calls: seq<Call>): Store
    decreases |calls|
  {
    if calls == [] then store else Run(Step(store, errs, calls[0]).store, errs, calls[1..])
  }

  /** Served one at a time, the handlers keep every document well formed: no document ever
      has the nil id, so a malformed path id never reaches one. */
  lemma {:induction false} RunPreservesWellFormed(store: Store, errs: ServerErrors, calls: seq<Call>)
    requires WellFormed(store)
    ensures WellFormed(Run(store, errs, calls))
    decreases |calls|
  {
    if calls != [] {
      RunPreservesWellFormed(Step(store, errs, calls[0]).store, errs, calls[1..]);
    }
  }

  // ---------------------------------------------------------------------------
  // The handlers behind the auth gate
  // ---------------------------------------------------------------------------

  /** Put behind `AuthMiddleware` (routes/watchlist.go registers them without it), none of the
      four handlers is reached by a request without an `Authorization` header: each answers
      401 "Missing or invalid token" and the collection stays as it was, whatever the verifier
      and whatever the driver would have done. */
  lemma NoTokenReachesNoHandler(verify: Verifier, r: Request<Watchlist>, store: Store, newId: NewId,
                                scan: seq<ObjectId>, faults: Faults, errs: ServerErrors)
    requires AuthorizationHeader !in r.headers
    ensures var denied := Outcome(Sent(StatusUnauthorized, [Text("Missing or invalid token")]), store);
            && Guarded(verify, (r': Request<Watchlist>) => Add(r', store, newId, faults, errs), r, store) == denied
            && Guarded(verify, (r': Request<Watchlist>) => List(r', store, scan, faults), r, store) == denied
            && Guarded(verify, (r': Request<Watchlist>) => Update(r', store, faults, errs), r, store) == denied
            && Guarded(verify, (r': Request<Watchlist>) => Delete(r', store, faults), r, store) == denied
  {
    MissingHeaderRejected(verify, r);
  }
}

=== FILE: wrappers.dfy ===
/** Option and Result, the two failure-carrying datatypes the model uses in place of
    Go's `(value, error)` pairs and nil checks. */
module Wrappers {

  datatype Option<+T> = None | Some(value: T) {

    /** The value, or `default` when there is none (Go's zero value on a failed lookup). */
    function GetOr(default: T): T {
      match this
      case Some(v) => v
      case None => default
    }
  }

  /** Go's `(value, err)`: `Failure(e)` stands for a non-nil `err`. */
  datatype Result<+R, +E> = Success(value: R) | Failure(error: E)
}
